=== FILE: README.md ===
# rag-agent-eval, modelled in Dafny

A model of the controller layer of a retrieval-augmented culinary assistant.
The assistant answers recipe questions from a vector store of recipes. A
second model ("the judge") labels the last answer, and a third ("the scorer")
turns the judge's reasoning into a percentage. The model covers:

- `app/rag_orchestrator.py` (`AppOrchestrator`): the current conversation
  orchestrator, a class whose `invoke` updates its history, its last
  retrieved documents and its last interaction time. A history idle for more
  than a day (86400 seconds) is dropped. The query analyzer's count plus 3 is
  the rerank cutoff; the default is 4. The first message of a conversation
  gets a greeting instruction. The retriever and answer chains run on the
  primary model and run exactly once more on the fallback model when that
  raised `ResourceExhausted`. The history keeps the last 20 messages.
- `src/rag_orchestrator.py` (`SrcOrchestrator`): the earlier orchestrator.
  It has no idle reset, no margin and no greeting.
- `src/rag/retriver.py` (`DynamicRetriever`): the retriever chain builder.
  The base search breadth is `2 * top_n` for `top_n >= 10`, else 10. The
  stages are search, multi-query expansion, rerank to `top_n`, and
  history-aware rewriting, in that order.
- `main_context.py` (`MainContext`): `run_evaluation` (judge and scorer,
  each with one quota fallback, the verdict label map and the digit-filter
  score parse) and the command-line chat loop of `main` (`quit`, `/eval`,
  questions with a quota fallback, a 10-message history, optional automatic
  evaluation).
- `app/app_nodes.py` (`AppNodes`): the graph nodes. The router sends
  `quit`/`/eval` in any case to the exit/evaluation nodes and everything
  else to the question node. The nodes return state updates.

Shared pieces:

- `Common`: `Option`, `Call` (a value or a raised `Error`), model roles,
  documents and the settings constants.
- `History`: messages, the append-then-trim step and the pairing invariant.
- `PyStr`: the parts of Python's `str.lower`, `str.isdigit`, `str.strip` and
  `int(str)` the controllers rely on, and `str(int)`, which the controllers
  never call: it is there only for the round trip `PyStr.ParseShowInt`.
- `RagChains`: the chains as oracles and the shared primary/fallback try
  block.

Every model call (analyzer, retriever chain, answer chain, RAG chain, judge,
scorer) is an oracle: a total function from the call's inputs to a `Call`,
either a returned value or a raised `Error` (`ResourceExhausted`,
`ValueOrTypeError`, `OtherError`). The model records each call with its
inputs, and for the chains with what they returned or raised, as an event, so the properties below hold whatever the models
answer. The clock is the parameter `now`. Console input is the sequence of
lines `inputs`.

Python exceptions become `Raise` values. A raised outcome of
`RagOrchestrator.Invoke` or `ProcessQuestionNode` is the exception that
escapes to the caller; `TurnOutcome` states which call raised it. `Crashed(e)` of the chat loop is the exception that
reaches `main`'s outer handler (`sys.exit(1)`).

## Model

| member | source | states |
|---|---|---|
| PyStr.LowerEqualsIff | app/app_nodes.py:69-73 | `u.lower() == w` for a lower-case word `w` holds exactly when `u` is `w` with any of its letters capitalised (both directions) |
| PyStr.KeepDigits | main_context.py:82 | filtering with `str.isdigit` yields only digits and never lengthens the text |
| PyStr.KeepDigitsAppend | main_context.py:82 | the digit filter of a concatenation is the concatenation of the filters |
| PyStr.KeepDigitsOfDigits | main_context.py:82 | a text of digits passes the filter unchanged |
| PyStr.KeepDigitsOfNonDigits | main_context.py:82 | a text without digits filters to the empty string |
| PyStr.StripSlice | app/rag_orchestrator.py:45 | `strip()`, which `int()` applies first, removes only white space, only at the ends, and leaves none at either end |
| PyStr.ParseInt | app/rag_orchestrator.py:45 | `int(s)` succeeds only when the stripped text ends in a digit |
| PyStr.DigitGroupsIff | app/rag_orchestrator.py:45 | the digit reader accepts exactly a run of digits and single underscores that starts and ends with a digit (both directions) |
| PyStr.ParseIntIff | app/rag_orchestrator.py:45 | `int(s)` returns exactly on an integer literal (one optional sign, then digit groups) padded with white space, and raises ValueError on every other text; the value is that of the literal's digits, negated after `-` |
| PyStr.ParseNeedsDigit | app/rag_orchestrator.py:45-48 | `int(s)` raises ValueError on every text without a decimal digit |
| PyStr.DigitGroupsValue | app/rag_orchestrator.py:45 | underscores accepted by `int()` between digits do not change the value, which is that of the digits alone |
| PyStr.ParseShowInt | app/rag_orchestrator.py:44-45 | round trip: `int()` reads back `str(n)` for every integer `n`, with any white space around it |
| RagChains.DynamicTopN | app/rag_orchestrator.py:43-49 | the cutoff is `int(reply)` plus the margin; it is 4 when the reply is not an integer or the analyzer raised ValueError/TypeError; any other analyzer error escapes, unchanged, and only those |
| RagChains.CountedTopN | app/rag_orchestrator.py:44-46 | an analyzer reply that is a count in decimal, padded with white space, gives that count plus the margin |
| RagChains.UncountedTopN | app/rag_orchestrator.py:47-49 | a reply without a digit gives the default 4 |
| RagChains.NonLiteralTopN | app/rag_orchestrator.py:44-49 | every reply that is not an integer literal once stripped gives the default 4 |
| RagChains.TryChains | app/rag_orchestrator.py:61-70 | the pass first retrieves through the dynamic chain built for its model and `top_n`, with the raw input, and records what it returned; only when that returned, it answers the QA input from exactly those documents; the documents reported are the retrieved ones; the outcome is the last call's |
| RagChains.WithFallback | app/rag_orchestrator.py:60-83 | an attempt whose primary pass did not raise ResourceExhausted is that pass, error included; otherwise the fallback pass follows it and gives the outcome |
| RagChains.FallbackCalls | app/rag_orchestrator.py:60-83 | one to four calls; every retrieval goes through the chain built for its model and `top_n` with the raw input and the history, and is recorded with the retriever's result; every answer call gets the QA input, the history and the documents the retrieval just before it on the same model returned, and is recorded with the answer chain's result |
| RagChains.FallbackDiscipline | app/rag_orchestrator.py:60-83 | the primary model is called first; once the fallback model is called, every later call is on it; each model retrieves at most once; the fallback runs exactly when the primary pass raised ResourceExhausted; otherwise the attempt is the primary pass, its error included; ResourceExhausted escapes only from the fallback |
| RagChains.AnalyzedFallback | app/rag_orchestrator.py:60-83 | after the analyzer call the primary model retrieves first; the fallback is called, and from then on only it, exactly when the primary pass raised ResourceExhausted; the outcome is what the last call returned or raised; ResourceExhausted escapes only from the fallback |
| RagChains.FallbackResult | app/rag_orchestrator.py:60-83 | the documents reported are those of the last retrieval that returned; the outcome is the last call's result; a returned answer comes from an answer call made on the documents the retrieval just before it, on the same model and its own chain, returned |
| DynamicRetriever.TopK | src/rag/retriver.py:18-21 | the base search breadth is at least 10 and at least `top_n`; it is `2 * top_n` exactly from `top_n >= 10`, else 10 |
| DynamicRetriever.TopKMonotone | src/rag/retriver.py:18-21 | a larger cutoff never narrows the base search |
| DynamicRetriever.CreateDynamicRetrieverChain | src/rag/retriver.py:15-61 | stages in the order search, multi-query, rerank, history-aware; search breadth `TopK(top_n)`; one rerank cutoff `top_n`; every model-driven stage uses the given model |
| History.KeepLast | app/rag_orchestrator.py:88-89 | `s[len(s)-n:]` when longer than `n`, else `s`: the last `min(n, len)` entries, in order |
| History.Record | app/rag_orchestrator.py:86-89 | after appending a question/answer pair and trimming: the length is `min(limit, len + 2)`; nothing is cut while under the limit; the pair ends the history; the rest is the old history's tail |
| History.RecordKeepsPairs | app/rag_orchestrator.py:86-89 | with an even limit, appending a pair and trimming keeps human and AI messages alternating in whole pairs |
| History.AppendPairKeepsPairs | app/rag_orchestrator.py:86-87 | appending a human/AI pair keeps the pairing |
| History.KeepLastKeepsPairs | app/rag_orchestrator.py:88-89 | cutting an even number of messages off the front keeps the pairing |
| AppOrchestrator.ActiveHistory | app/rag_orchestrator.py:34-36 | the history is dropped exactly when a (truthy) last time lies more than 86400 seconds before `now` and there is a history to drop; otherwise it is kept |
| AppOrchestrator.IntroPrompt | app/rag_orchestrator.py:51-56 | the greeting instruction comes first, then the question between single quotes, and nothing else |
| AppOrchestrator.IntroPromptInjective | app/rag_orchestrator.py:52-56 | distinct questions give distinct greetings |
| AppOrchestrator.Turn | app/rag_orchestrator.py:31-91 | the time is set to `now` on every call; a failed turn leaves the history after the idle check; a successful one appends the exchange to it, capped at 20; the analyzer is called first |
| AppOrchestrator.TurnCalls | app/rag_orchestrator.py:42-83 | the analyzer is called once and first; every retrieval goes through the chain built for its model and the analyzer's cutoff plus 3, with the raw input and the history after the idle check, and is recorded with the retriever's result; every answer call gets that history, and the greeting-wrapped question exactly when that history is empty, and is recorded with the answer chain's result |
| AppOrchestrator.AnalyzedEvents | app/rag_orchestrator.py:60-83 | in the trace after the analyzer call, the analyzer is not called again, every retrieval goes through its model's chain with the raw input and the history and is recorded with its result, and every answer call gets the QA input and the history and is recorded with its result |
| AppOrchestrator.TurnAnswerDocs | app/rag_orchestrator.py:60-83 | after a successful turn `last_retrieved_docs` is exactly what the retriever chain of the answering model returned for the raw input and the history, and the returned answer is that model's answer chain on those documents |
| AppOrchestrator.TurnDocs | app/rag_orchestrator.py:60-83 | after any turn `last_retrieved_docs` holds the documents of the turn's last retrieval that returned, and is unchanged when none did |
| AppOrchestrator.TurnFallback | app/rag_orchestrator.py:42-83 | an analyzer error other than ValueError/TypeError escapes unchanged before any chain runs; past the analyzer the primary model retrieves first; the fallback is called, and from then on only it, exactly when the primary pass raised ResourceExhausted |
| AppOrchestrator.TurnOutcome | app/rag_orchestrator.py:42-83 | the turn returns or raises exactly what its last call did (the analyzer's exception, a retrieval's exception, the answer chain's reply or exception); ResourceExhausted escapes only from the analyzer or the fallback |
| AppOrchestrator.TurnKeepsPairs | app/rag_orchestrator.py:85-89 | a turn keeps the history paired and at most 20 messages long |
| AppOrchestrator.RagOrchestrator.constructor | app/rag_orchestrator.py:27-30 | empty history and documents, no interaction time, timeout 86400 |
| AppOrchestrator.RagOrchestrator.Invoke | app/rag_orchestrator.py:31-91 | the new fields and the returned or raised outcome are those of `Turn` on the old fields; the history invariant is kept |
| AppOrchestrator.RagOrchestrator.RunChains | app/rag_orchestrator.py:60-70 | one pass of the try body on a model: the reply and stored documents of `TryChains`; history and time unchanged |
| AppOrchestrator.RagOrchestrator.AppendTurn | app/rag_orchestrator.py:85-89 | the history becomes `Record(old history, question, answer, 20)`; the other fields are unchanged; the invariant is kept |
| SrcOrchestrator.Turn | src/rag_orchestrator.py:28-65 | a failed turn leaves the history unchanged; a successful one appends the exchange, capped at 20; the analyzer is called first |
| SrcOrchestrator.TurnCalls | src/rag_orchestrator.py:29-57 | the analyzer is called once and first; every retrieval goes through the chain built for its model and the analyzer's cutoff with no margin, with the raw input and the current history, and is recorded with the retriever's result; every answer call gets the raw input and the history and is recorded with its result |
| SrcOrchestrator.AnalyzedEvents | src/rag_orchestrator.py:38-57 | in the trace after the analyzer call, the analyzer is not called again, every retrieval goes through its model's chain and every chain call gets the raw input and the history and is recorded with its result |
| SrcOrchestrator.TurnAnswerDocs | src/rag_orchestrator.py:38-57 | after a successful turn `last_retrieved_docs` is exactly what the retriever chain of the answering model returned, and the returned answer is that model's answer chain on those documents |
| SrcOrchestrator.TurnDocs | src/rag_orchestrator.py:38-57 | after any turn `last_retrieved_docs` holds the documents of the turn's last retrieval that returned, and is unchanged when none did |
| SrcOrchestrator.TurnFallback | src/rag_orchestrator.py:29-57 | an analyzer error other than ValueError/TypeError escapes unchanged before any chain runs; past the analyzer the primary model retrieves first; the fallback is called, and from then on only it, exactly when the primary pass raised ResourceExhausted |
| SrcOrchestrator.TurnOutcome | src/rag_orchestrator.py:29-57 | the turn returns or raises exactly what its last call did (the analyzer's exception, a retrieval's exception, the answer chain's reply or exception); ResourceExhausted escapes only from the analyzer or the fallback |
| SrcOrchestrator.TurnKeepsPairs | src/rag_orchestrator.py:59-63 | a turn keeps the history paired and at most 20 messages long |
| SrcOrchestrator.RagOrchestrator.constructor | src/rag_orchestrator.py:25-26 | empty history and documents |
| SrcOrchestrator.RagOrchestrator.Invoke | src/rag_orchestrator.py:28-65 | the new fields and the outcome are those of `Turn` on the old fields; the invariant is kept |
| SrcOrchestrator.RagOrchestrator.RunChains | src/rag_orchestrator.py:38-46 | one pass of the try body: the reply and stored documents of `TryChains`; the history is unchanged |
| SrcOrchestrator.RagOrchestrator.AppendTurn | src/rag_orchestrator.py:59-63 | the history becomes `Record(old history, question, answer, 20)`; documents unchanged; invariant kept |
| MainContext.WithRetry | main_context.py:49-59 | a call is made on the primary model, and on the fallback model exactly when the primary raised ResourceExhausted; the result is that of the last call |
| MainContext.VerdictOf | main_context.py:61-62 | ACCURATE exactly for score 1.0, NOT ACCURATE exactly for 0.0, UNKNOWN otherwise |
| MainContext.ContextText | main_context.py:45-46 | the joined text starts with the first document's text and ends with the last's |
| MainContext.ContextTextAppend | main_context.py:45-46 | joining two non-empty runs of documents gives their joined texts with one separator between |
| MainContext.ContextTextLength | main_context.py:45-46 | the reference text is every document's text plus one separator between each two, nothing more |
| MainContext.ParseScore | main_context.py:81-86 | a missing scorer output gives no score |
| MainContext.ScoreOfDigits | main_context.py:81-83 | the score is the number the output's digits spell, in their order; an output without digits gives none |
| MainContext.ScoreRoundTrip | main_context.py:81-83 | a number written in decimal, with digit-free text around it, is read back exactly |
| MainContext.ScoreJoinsNumbers | main_context.py:82-83 | all the output's digits are joined, so `"85/100"` scores 85100 |
| MainContext.ScoreExamples | main_context.py:81-86 | `"85%"` gives 85, `"0"` gives 0, `"N/A"` and a missing output give none |
| MainContext.RunEvaluation | main_context.py:38-86 | skipped (and no model called) exactly when the context key is missing or empty |
| MainContext.EvaluationJudge | main_context.py:48-59 | the judge is called first with the answer, the question and the joined documents; it is called on the fallback exactly when the primary raised ResourceExhausted; a judge failure ends the evaluation before the scorer |
| MainContext.EvaluationScore | main_context.py:61-86 | the scorer gets the question, the answer and the judge's reasoning (`''` when absent); it is retried on the fallback exactly on ResourceExhausted; the outcome is the verdict label, the reasoning and the parsed score, or the scorer's error |
| MainContext.EvaluationTrace | main_context.py:48-79 | the whole call trace: the judge on the judge model, then on the fallback exactly when that raised ResourceExhausted; only if the judge returned, the scorer the same way; no other call |
| MainContext.Step | main_context.py:110-165 | one pass ends the loop with `quit` exactly when the line lower-cased is `quit`; no other line ends it that way |
| MainContext.StepRecords | main_context.py:127-157 | one pass either keeps the state or makes it the record of this line: the line as last question, a response, and the history with the exchange appended, capped at 10 |
| MainContext.Run | main_context.py:109-165 | the loop ends with `quit` only if some input line lower-cased is `quit`; with no more input the state is kept and nothing is called |
| MainContext.StepQuit | main_context.py:112-114 | `quit` in any case ends the loop and changes nothing |
| MainContext.StepEvaluate | main_context.py:116-125 | `/eval` in any case never changes the state or stops the loop; it evaluates the last question and response exactly when there are some |
| MainContext.StepQuestion | main_context.py:127-165 | the primary chain is asked with the raw line and the history, and the fallback exactly on ResourceExhausted; other failures end the loop; the answer (or `""`) is recorded with the question, capped at 10; auto-evaluation stops the loop only on an error other than ResourceExhausted |
| MainContext.JudgeTypeErrorEndsLoop | main_context.py:159-165 | a judge that always raises TypeError ends an evaluating loop at the first answer that has context; without `--evaluate` the loop goes on |
| MainContext.RunKeepsPairs | main_context.py:150-155 | the loop's history stays paired and at most 10 messages long over any input |
| MainContext.StepKeepsPairs | main_context.py:150-155 | one pass of the loop body keeps the history paired and within 10 |
| MainContext.ChatLoop | main_context.py:104-170 | the loop's exit, final history and calls are those of `Run` from the empty state; the history stays paired and within 10 |
| MainContext.AskQuestion | main_context.py:127-165 | the question branch computes exactly `Step` on its state; the history stays paired and within 10 |
| AppNodes.Router | app/app_nodes.py:67-75 | exit exactly for `quit` in any case, evaluation exactly for `/eval` in any case, the question node exactly otherwise |
| AppNodes.HandleEvaluationNode | app/app_nodes.py:45-60 | no state update; the evaluation is called, once, with the last question, answer and the orchestrator's documents exactly when question and answer are both non-empty |
| AppNodes.EvaluationKeepsState | app/app_nodes.py:60 | merging the evaluation node's update leaves the state as it was |
| AppNodes.HandleExitNode | app/app_nodes.py:62-65 | merging the exit node's update sets `should_exit` and changes nothing else |
| AppNodes.QuestionUpdate | app/app_nodes.py:40-43 | merging the question node's update replaces the last question and answer and changes nothing else |
| AppNodes.AnsweredThenEvaluated | app/app_nodes.py:40-53 | after a non-empty question and answer are recorded, the evaluation node evaluates exactly them |
| AppNodes.ProcessQuestionNode | app/app_nodes.py:12-43 | the orchestrator takes one `Turn`, whose error propagates; on an answer the update is the question and the answer, and the automatic evaluation (when enabled) is called once with them and the orchestrator's new documents |

## Left out

- Console output, logging, prompts and the printed context are not modelled: they change no state.
- The vector store, the embeddings and the LangChain chains (multi-query expansion, FlashRank reranking, history-aware rewriting, the QA and RAG chains, the judge and scorer prompts) are oracles. Only their parameters and the order of the stages are modelled.
- `create_rag_agent`, `create_vector_store`, `configure_api_keys` and the graph wiring in `app/app_graph.py` are not part of this model. A failure during initialization is not modelled.
- `src/settings.py` defines neither `DEFAULT_RERANK_TOP_N`, `ANALYZER_LLM_MODEL` nor `DEFAULT_RETRIEVER_TOP_K`, which the orchestrators and the retriever import from it, so those imports fail as written. The model uses the values of `app/settings.py`: 4 and 10.
- `src/evaluator.py` defines `get_accuracy_evaluator()` without parameters, while `main_context.py:50` and `:56` pass `model_name=`. As written, building the judge raises TypeError. The model leaves the judge an arbitrary oracle; `MainContext.JudgeTypeErrorEndsLoop` states the consequence when it always raises TypeError.
- `AppOrchestrator.RagOrchestrator.Invoke` reads the clock once (`now`). The source reads `time.time()` up to twice (line 34, only when a truthy last time is recorded, and line 38), a few microseconds apart.
- `PyStr.ParseInt`: does not model Python's limit of 4300 digits on `int()` of a string (ValueError beyond it); `PyStr.ParseShowInt`, `RagChains.CountedTopN`, `MainContext.ScoreOfDigits` and `MainContext.ScoreRoundTrip` therefore hold in the model for numbers of any length, in Python only up to 4300 digits.
- `PyStr`: only ASCII letters, digits and white space get their Python meaning. Python's `lower()`, `isdigit()`, `strip()` and `int()` also act on non-ASCII letters, digits (such as superscripts, which `isdigit` accepts and `int` rejects) and white space.
- `MainContext.RunEvaluation`: a missing `answer` key is a KeyError (`OtherError`) raised before any model call. In the source the judge is built before `response["answer"]` is read, so a failure while building the judge would come first.
- `MainContext.VerdictOf`: the score is a `real`. Python's `True == 1.0`, which would also map a boolean score to ACCURATE, is not modelled.
- `MainContext.Asked`: a response counts as truthy whenever it is present. The retrieval chain's dictionary always holds at least its input keys; the model keeps only the `context` and `answer` keys.
- `MainContext.ChatLoop`: the end of the input is Python's EOFError and is modelled as `Crashed(OtherError)`. SIGINT handling is not modelled.
- The evaluation function passed to `AppNodes` is recorded as a call; its exceptions are always caught, so its outcome is not modelled.
- `AppNodes.ProcessQuestionNode` takes the orchestrator of `app/rag_orchestrator.py`, from the same package, and the clock reading `now`. The state's orchestrator is typed `Any` in the source.

=== FILE: app_nodes.dfy ===
/** The nodes of the conversation graph (app/app_nodes.py): a router that
    sends each line to one of three handlers, and the handlers, which return
    the state fields to update rather than changing the state themselves. */
module AppNodes {
  import opened Common
  import opened RagChains
  import AppOrchestrator
  import PyStr

  /** The graph state, without the orchestrator object (passed separately);
      `None` is a key the state does not hold yet. */
  datatype AppState = AppState(
    userInput: string,
    lastQuestion: Option<string>,
    lastAnswer: Option<string>,
    autoEvaluate: bool,
    shouldExit: Option<bool>)

  /** A node's return value: the keys it sets (`None` is a key it leaves out). */
  datatype Update = Update(lastQuestion: Option<string>, lastAnswer: Option<string>, shouldExit: Option<bool>)

  const NoUpdate: Update := Update(None, None, None)

  /** How the graph merges a node's update into the state: every key the
      update holds replaces the state's value, every other is kept. */
  function Apply(s: AppState, u: Update): AppState {
    AppState(
      s.userInput,
      if u.lastQuestion.Some? then u.lastQuestion else s.lastQuestion,
      if u.lastAnswer.Some? then u.lastAnswer else s.lastAnswer,
      s.autoEvaluate,
      if u.shouldExit.Some? then u.shouldExit else s.shouldExit)
  }

  datatype Route = ProcessQuestion | HandleEvaluation | HandleExit

  /** `router`: `quit` and `/eval` in any capitalisation are commands, every
      other line is a question. */
  function Router(s: AppState): (r: Route)
    ensures r == HandleExit <==> PyStr.EqualsIgnoringCase(s.userInput, "quit")
    ensures r == HandleEvaluation <==> PyStr.EqualsIgnoringCase(s.userInput, "/eval")
    ensures r == ProcessQuestion <==>
      !PyStr.EqualsIgnoringCase(s.userInput, "quit") && !PyStr.EqualsIgnoringCase(s.userInput, "/eval")
  {
    PyStr.LowerEqualsIff(s.userInput, "quit");
    PyStr.LowerEqualsIff(s.userInput, "/eval");
    var userInput := PyStr.Lower(s.userInput);
    if userInput == "quit" then HandleExit
    else if userInput == "/eval" then HandleEvaluation
    else ProcessQuestion
  }

  /** A call of the evaluation function the nodes were built with, with its
      question, answer and documents. */
  datatype EvaluationCall = EvaluationCall(question: string, answer: string, docs: seq<Doc>)

  datatype NodeResult = NodeResult(update: Update, calls: seq<EvaluationCall>)

  /** Python truthiness of an optional string. */
  predicate Truthy(x: Option<string>) {
    x.Some? && x.value != ""
  }

  /** `handle_evaluation`: evaluates the last exchange on the orchestrator's
      last documents only when a question and an answer are on record; every
      exception of the evaluation is caught; nothing is updated. */
  function HandleEvaluationNode(s: AppState, lastRetrievedDocs: seq<Doc>): (r: NodeResult)
    ensures r.update == NoUpdate
    ensures r.calls != [] <==> Truthy(s.lastQuestion) && Truthy(s.lastAnswer)
    ensures r.calls != [] ==> r.calls == [EvaluationCall(s.lastQuestion.value, s.lastAnswer.value, lastRetrievedDocs)]
  {
    if Truthy(s.lastQuestion) && Truthy(s.lastAnswer) then
      NodeResult(NoUpdate, [EvaluationCall(s.lastQuestion.value, s.lastAnswer.value, lastRetrievedDocs)])
    else NodeResult(NoUpdate, [])
  }

  /** The evaluation node leaves every field of the state as it was. */
  lemma EvaluationKeepsState(s: AppState, lastRetrievedDocs: seq<Doc>)
    ensures Apply(s, HandleEvaluationNode(s, lastRetrievedDocs).update) == s
  {
  }

  /** `handle_exit`: after it the state asks to exit and is otherwise
      unchanged. */
  function HandleExitNode(): (u: Update)
    ensures forall s :: Apply(s, u) == s.(shouldExit := Some(true))
  {
    Update(None, None, Some(true))
  }

  /** The update `process_question` returns for an answered question: it
      replaces the last question and the last answer of the state and leaves
      the rest as it was. */
  function QuestionUpdate(question: string, answer: string): (u: Update)
    ensures forall s :: Apply(s, u) == s.(lastQuestion := Some(question), lastAnswer := Some(answer))
  {
    Update(Some(question), Some(answer), None)
  }

  /** After a question answered with a non-empty text, `/eval` evaluates
      exactly that question and answer on the documents it is given. */
  lemma AnsweredThenEvaluated(s: AppState, question: string, answer: string, docs: seq<Doc>)
    requires question != "" && answer != ""
    ensures HandleEvaluationNode(Apply(s, QuestionUpdate(question, answer)), docs).calls
      == [EvaluationCall(question, answer, docs)]
  {
  }

  /** `process_question`: one turn of the orchestrator, whose exceptions
      propagate; then, when enabled, the automatic evaluation on the answer
      and the orchestrator's documents, whose exceptions are caught; the
      update records the question and the answer. */
  method ProcessQuestionNode(s: AppState, orchestrator: AppOrchestrator.RagOrchestrator, now: int, o: Oracles)
    returns (r: Call<NodeResult>)
    requires orchestrator.Valid()
    modifies orchestrator
    ensures orchestrator.Valid()
    ensures var t := AppOrchestrator.Turn(old(orchestrator.State()), s.userInput, now, o);
      && orchestrator.State() == t.state
      && (t.outcome.Raise? ==> r == Raise(t.outcome.error))
      && (t.outcome.Ok? ==> r.Ok? && r.value.update == QuestionUpdate(s.userInput, t.outcome.value))
      && (t.outcome.Ok? && s.autoEvaluate ==>
            r.value.calls == [EvaluationCall(s.userInput, t.outcome.value, orchestrator.lastRetrievedDocs)])
      && (t.outcome.Ok? && !s.autoEvaluate ==> r.value.calls == [])
  {
    var answer := orchestrator.Invoke(s.userInput, now, o);
    if answer.Raise? {
      return Raise(answer.error);
    }
    var retrievedContext := orchestrator.lastRetrievedDocs;
    var calls := [];
    if s.autoEvaluate {
      // every exception of the evaluation is caught and logged
      calls := [EvaluationCall(s.userInput, answer.value, retrievedContext)];
    }
    r := Ok(NodeResult(QuestionUpdate(s.userInput, answer.value), calls));
  }
}

=== FILE: app_orchestrator.dfy ===
/** The current conversation orchestrator (app/rag_orchestrator.py): one turn
    resets a history idle for more than a day, asks the analyzer for a result
    count, greets on the first message, runs the retriever and answer chains
    with a single fallback on quota exhaustion, and records the exchange in a
    history of at most 20 messages. */
module AppOrchestrator {
  import opened Common
  import opened History
  import opened RagChains

  /** Seconds of inactivity after which the history is dropped. */
  const InactivityTimeout: int := 86400

  /** Added to the analyzer's count to leave the reranker some headroom. */
  const TopNMargin: int := 3

  const HistoryLimit: nat := 20

  datatype OrchestratorState = OrchestratorState(
    chatHistory: seq<Message>,
    lastRetrievedDocs: seq<Doc>,
    lastInteractionTime: Option<int>)

  datatype TurnResult = TurnResult(state: OrchestratorState, outcome: Call<string>, events: seq<Event>)

  /** `self.last_interaction_time and (now - self.last_interaction_time) > timeout`;
      a recorded time of 0 is false in Python and never times out. */
  predicate TimedOut(last: Option<int>, now: int) {
    last.Some? && last.value != 0 && now - last.value > InactivityTimeout
  }

  /** The history a turn works with once the idle check has run. */
  function ActiveHistory(s: OrchestratorState, now: int): (h: seq<Message>)
    ensures h == [] || h == s.chatHistory
    ensures h != s.chatHistory <==> TimedOut(s.lastInteractionTime, now) && s.chatHistory != []
  {
    if TimedOut(s.lastInteractionTime, now) then [] else s.chatHistory
  }

  /** The instruction put before the first message of a conversation. */
  const IntroHead: string :=
    "Tis is the first interaction with the user. "
    + "Welcome them and introduce yourself as BOB, their culinary assistant, then you can reply to their question. "
    + "their question is: '"

  /** The question-answering input of the first message of a conversation. */
  function IntroPrompt(userInput: string): (p: string)
    ensures |p| == |IntroHead| + |userInput| + 1 && p[..|IntroHead|] == IntroHead
    ensures p[|p| - |userInput| - 1..|p| - 1] == userInput
    ensures p[|p| - |userInput| - 2] == '\'' && p[|p| - 1] == '\''
  {
    IntroHead + userInput + "'"
  }

  /** Distinct questions give distinct greetings: the wrapper loses nothing. */
  lemma IntroPromptInjective(u: string, v: string)
    requires IntroPrompt(u) == IntroPrompt(v)
    ensures u == v
  {
    var p := IntroPrompt(u);
    assert |u| == |v|;
    assert u == p[|p| - |u| - 1..|p| - 1];
  }

  /** One call of `invoke(user_input)` at time `now`. */
  function Turn(s: OrchestratorState, userInput: string, now: int, o: Oracles): (t: TurnResult)
    ensures t.state.lastInteractionTime == Some(now)
    ensures t.outcome.Raise? ==> t.state.chatHistory == ActiveHistory(s, now)
    ensures t.outcome.Ok? ==>
      t.state.chatHistory == Record(ActiveHistory(s, now), userInput, t.outcome.value, HistoryLimit)
    ensures |t.events| >= 1 && t.events[0] == Analyze(userInput)
  {
    var history := ActiveHistory(s, now);
    var s1 := s.(chatHistory := history, lastInteractionTime := Some(now));
    match DynamicTopN(o.analyze(userInput), TopNMargin)
    case Raise(e) => TurnResult(s1, Raise(e), [Analyze(userInput)])
    case Ok(topN) =>
      var qaInput := if history == [] then IntroPrompt(userInput) else userInput;
      var a := WithFallback(o, topN, userInput, qaInput, history);
      var s2 := s1.(lastRetrievedDocs := a.docs.GetOr(s1.lastRetrievedDocs));
      var events := [Analyze(userInput)] + a.events;
      match a.reply
      case Raise(e) => TurnResult(s2, Raise(e), events)
      case Ok(response) =>
        TurnResult(s2.(chatHistory := Record(history, userInput, response, HistoryLimit)), Ok(response), events)
  }

  /** The analyzer is called once, first; every retrieval goes through the
      dynamic chain built for its model and the `top_n` derived from the
      analyzer, with the raw user input and the history after the idle check,
      and is recorded with what the retriever gave back; every answer call
      gets that history, and the greeting-wrapped question exactly when that
      history is empty. */
  lemma TurnCalls(s: OrchestratorState, userInput: string, now: int, o: Oracles)
    ensures var t := Turn(s, userInput, now, o);
      forall i :: 1 <= i < |t.events| ==> !t.events[i].Analyze?
    ensures var t := Turn(s, userInput, now, o); var h := ActiveHistory(s, now);
      var topN := DynamicTopN(o.analyze(userInput), TopNMargin);
      forall i :: 0 <= i < |t.events| && t.events[i].Retrieve? ==>
        && topN.Ok?
        && t.events[i].chain == DynamicRetriever.CreateDynamicRetrieverChain(topN.value, t.events[i].llm)
        && t.events[i].input == userInput && t.events[i].history == h
        && t.events[i].retrieved == o.retrieve(t.events[i].chain, userInput, h)
    ensures var t := Turn(s, userInput, now, o); var h := ActiveHistory(s, now);
      forall i :: 0 <= i < |t.events| && t.events[i].Answer? ==>
        && t.events[i].history == h
        && t.events[i].input == (if h == [] then IntroPrompt(userInput) else userInput)
        && t.events[i].reply == o.answer(t.events[i].llm, t.events[i].input, h, t.events[i].context)
  {
    var t := Turn(s, userInput, now, o);
    var h := ActiveHistory(s, now);
    var topN := DynamicTopN(o.analyze(userInput), TopNMargin);
    if topN.Ok? {
      var qaInput := if h == [] then IntroPrompt(userInput) else userInput;
      AnalyzedEvents(o, topN.value, userInput, qaInput, h);
      assert t.events == [Analyze(userInput)] + WithFallback(o, topN.value, userInput, qaInput, h).events;
    } else {
      assert t.events == [Analyze(userInput)];
    }
  }

  /** The trace of a turn that got past the analyzer: the analyzer call, then
      the calls of the chains, made as the try block makes them. */
  lemma AnalyzedEvents(o: Oracles, topN: int, userInput: string, qaInput: string, h: seq<Message>)
    ensures var ev := [Analyze(userInput)] + WithFallback(o, topN, userInput, qaInput, h).events;
      forall i :: 0 <= i < |ev| ==>
        && (i > 0 ==> !ev[i].Analyze?)
        && (ev[i].Retrieve? ==>
              && ev[i].chain == DynamicRetriever.CreateDynamicRetrieverChain(topN, ev[i].llm)
              && ev[i].input == userInput && ev[i].history == h
              && ev[i].retrieved == o.retrieve(ev[i].chain, userInput, h))
        && (ev[i].Answer? ==>
              && ev[i].history == h && ev[i].input == qaInput
              && ev[i].reply == o.answer(ev[i].llm, qaInput, h, ev[i].context))
  {
    var a := WithFallback(o, topN, userInput, qaInput, h);
    FallbackCalls(o, topN, userInput, qaInput, h);
    var ev := [Analyze(userInput)] + a.events;
    forall i | 1 <= i < |ev| ensures ev[i] == a.events[i - 1] {
    }
  }

  /** After a successful turn `last_retrieved_docs` is exactly what the
      retrieval on the answering model returned, the context the returned
      answer was generated from; the answer is that call's reply. */
  lemma TurnAnswerDocs(s: OrchestratorState, userInput: string, now: int, o: Oracles)
    ensures var t := Turn(s, userInput, now, o); var h := ActiveHistory(s, now);
      var topN := DynamicTopN(o.analyze(userInput), TopNMargin);
      t.outcome.Ok? ==> topN.Ok? && |t.events| >= 2 && var last := t.events[|t.events| - 1];
        && last.Answer? && last.context == t.state.lastRetrievedDocs
        && o.retrieve(DynamicRetriever.CreateDynamicRetrieverChain(topN.value, last.llm), userInput, h)
           == Ok(t.state.lastRetrievedDocs)
        && t.outcome == o.answer(last.llm, last.input, h, t.state.lastRetrievedDocs)
  {
    var t := Turn(s, userInput, now, o);
    var h := ActiveHistory(s, now);
    var topN := DynamicTopN(o.analyze(userInput), TopNMargin);
    if topN.Ok? {
      var qaInput := if h == [] then IntroPrompt(userInput) else userInput;
      var a := WithFallback(o, topN.value, userInput, qaInput, h);
      FallbackResult(o, topN.value, userInput, qaInput, h);
      FallbackCalls(o, topN.value, userInput, qaInput, h);
      assert t.events == [Analyze(userInput)] + a.events;
      if t.outcome.Ok? {
        assert t.events[|t.events| - 1] == a.events[|a.events| - 1];
        assert t.events[|t.events| - 2] == a.events[|a.events| - 2];
      }
    }
  }

  /** Whatever the turn's outcome, `last_retrieved_docs` afterwards holds the
      documents of the turn's last retrieval that returned, and is left as it
      was when no retrieval returned. */
  lemma TurnDocs(s: OrchestratorState, userInput: string, now: int, o: Oracles)
    ensures var t := Turn(s, userInput, now, o);
      t.state.lastRetrievedDocs == LastRetrieved(t.events).GetOr(s.lastRetrievedDocs)
  {
    var t := Turn(s, userInput, now, o);
    var h := ActiveHistory(s, now);
    var topN := DynamicTopN(o.analyze(userInput), TopNMargin);
    LastRetrievedAppend([Analyze(userInput)], []);
    assert [Analyze(userInput)] + [] == [Analyze(userInput)];
    if topN.Ok? {
      var qaInput := if h == [] then IntroPrompt(userInput) else userInput;
      var a := WithFallback(o, topN.value, userInput, qaInput, h);
      FallbackResult(o, topN.value, userInput, qaInput, h);
      LastRetrievedAppend([Analyze(userInput)], a.events);
      assert t.events == [Analyze(userInput)] + a.events;
    }
  }

  /** The exceptions of a turn: an analyzer exception other than
      ValueError/TypeError escapes before any chain is called; past the
      analyzer the primary model retrieves first, and the fallback model is
      called, and from then on only it, exactly when the primary pass raised
      ResourceExhausted. */
  lemma TurnFallback(s: OrchestratorState, userInput: string, now: int, o: Oracles)
    ensures var t := Turn(s, userInput, now, o); var analysis := o.analyze(userInput);
      DynamicTopN(analysis, TopNMargin).Raise? ==> t.outcome == analysis && t.events == [Analyze(userInput)]
    ensures var t := Turn(s, userInput, now, o); var h := ActiveHistory(s, now);
      var topN := DynamicTopN(o.analyze(userInput), TopNMargin);
      var qaInput := if h == [] then IntroPrompt(userInput) else userInput;
      topN.Ok? ==>
        && |t.events| >= 2 && t.events[1].Retrieve? && t.events[1].llm == Primary
        && ((exists i :: 1 <= i < |t.events| && IsFallbackCall(t.events[i]))
            <==> TryChains(o, Primary, topN.value, userInput, qaInput, h).reply == Raise(ResourceExhausted))
        && (forall i, j :: 1 <= i < j < |t.events| && IsFallbackCall(t.events[i]) ==> IsFallbackCall(t.events[j]))
  {
    var t := Turn(s, userInput, now, o);
    var h := ActiveHistory(s, now);
    var topN := DynamicTopN(o.analyze(userInput), TopNMargin);
    if topN.Ok? {
      var qaInput := if h == [] then IntroPrompt(userInput) else userInput;
      AnalyzedFallback(o, topN.value, userInput, qaInput, h);
      assert t.events == [Analyze(userInput)] + WithFallback(o, topN.value, userInput, qaInput, h).events;
    }
  }

  /** A turn returns or raises what its last call did: the analyzer's
      exception, a retrieval's exception, or the answer chain's reply or
      exception; so any exception other than ResourceExhausted from the
      primary pass, and any on the fallback path, propagates unchanged, and
      ResourceExhausted escapes only from the analyzer or the fallback. */
  lemma TurnOutcome(s: OrchestratorState, userInput: string, now: int, o: Oracles)
    ensures var t := Turn(s, userInput, now, o); var last := t.events[|t.events| - 1];
      && (last.Analyze? ==> t.outcome.Raise? && t.outcome == o.analyze(userInput))
      && (last.Retrieve? ==> t.outcome == Raise(last.retrieved.error))
      && (last.Answer? ==> t.outcome == last.reply)
      && (t.outcome == Raise(ResourceExhausted) ==> last.Analyze? || IsFallbackCall(last))
  {
    var t := Turn(s, userInput, now, o);
    var h := ActiveHistory(s, now);
    var topN := DynamicTopN(o.analyze(userInput), TopNMargin);
    if topN.Ok? {
      var qaInput := if h == [] then IntroPrompt(userInput) else userInput;
      AnalyzedFallback(o, topN.value, userInput, qaInput, h);
      assert t.events == [Analyze(userInput)] + WithFallback(o, topN.value, userInput, qaInput, h).events;
    }
  }

  /** A turn keeps the history well paired and within its bound. */
  lemma TurnKeepsPairs(s: OrchestratorState, userInput: string, now: int, o: Oracles)
    requires WellPaired(s.chatHistory) && |s.chatHistory| <= HistoryLimit
    ensures var h := Turn(s, userInput, now, o).state.chatHistory; WellPaired(h) && |h| <= HistoryLimit
  {
    var t := Turn(s, userInput, now, o);
    var h0 := ActiveHistory(s, now);
    if t.outcome.Ok? {
      RecordKeepsPairs(h0, userInput, t.outcome.value, HistoryLimit);
    } else {
      assert WellPaired(h0);
    }
  }

  class RagOrchestrator {
    var chatHistory: seq<Message>
    var lastRetrievedDocs: seq<Doc>
    var lastInteractionTime: Option<int>
    const inactivityTimeout: int

    ghost predicate Valid()
      reads this
    {
      inactivityTimeout == InactivityTimeout && WellPaired(chatHistory) && |chatHistory| <= HistoryLimit
    }

    function State(): OrchestratorState
      reads this
    {
      OrchestratorState(chatHistory, lastRetrievedDocs, lastInteractionTime)
    }

    constructor ()
      ensures Valid()
      ensures chatHistory == [] && lastRetrievedDocs == [] && lastInteractionTime == None
    {
      chatHistory := [];
      lastRetrievedDocs := [];
      lastInteractionTime := None;
      inactivityTimeout := InactivityTimeout;
    }

    /** `invoke(user_input)`; the clock reading is the parameter `now`. */
    method Invoke(userInput: string, now: int, o: Oracles) returns (response: Call<string>)
      requires Valid()
      modifies this
      ensures Valid()
      ensures var t := Turn(old(State()), userInput, now, o);
              State() == t.state && response == t.outcome
    {
      ghost var s0 := State();
      if lastInteractionTime.Some? && lastInteractionTime.value != 0
         && now - lastInteractionTime.value > inactivityTimeout {
        chatHistory := [];
      }
      lastInteractionTime := Some(now);
      assert chatHistory == ActiveHistory(s0, now);
      var isFirstMessage := chatHistory == [];

      var topN: int;
      var analysis := o.analyze(userInput);
      var parsed := DynamicTopN(analysis, TopNMargin);
      if parsed.Raise? {
        return Raise(parsed.error);
      }
      topN := parsed.value;

      var qaInputText := if isFirstMessage then IntroPrompt(userInput) else userInput;
      ghost var docs0 := lastRetrievedDocs;
      var reply := RunChains(Primary, topN, userInput, qaInputText, o);
      if reply == Raise(ResourceExhausted) {
        reply := RunChains(Fallback, topN, userInput, qaInputText, o);
      }
      FallbackOutcome(o, topN, userInput, qaInputText, chatHistory, docs0);
      if reply.Raise? {
        return reply;
      }
      AppendTurn(userInput, reply.value);
      response := reply;
    }

    /** One pass of the try body on model `llm`: retrieve through a fresh
        dynamic chain, store the documents, then ask the QA chain. */
    method RunChains(llm: ModelRole, topN: int, userInput: string, qaInputText: string, o: Oracles)
      returns (reply: Call<string>)
      modifies this
      ensures var a := TryChains(o, llm, topN, userInput, qaInputText, chatHistory);
              reply == a.reply && lastRetrievedDocs == a.docs.GetOr(old(lastRetrievedDocs))
      ensures chatHistory == old(chatHistory) && lastInteractionTime == old(lastInteractionTime)
    {
      var retrieverChain := DynamicRetriever.CreateDynamicRetrieverChain(topN, llm);
      var retrieved := o.retrieve(retrieverChain, userInput, chatHistory);
      if retrieved.Raise? {
        return Raise(retrieved.error);
      }
      lastRetrievedDocs := retrieved.value;
      reply := o.answer(llm, qaInputText, chatHistory, lastRetrievedDocs);
    }

    /** Appends the question and the answer, then keeps the last
        `HistoryLimit` messages. */
    method AppendTurn(question: string, answer: string)
      requires Valid()
      modifies this
      ensures Valid()
      ensures chatHistory == Record(old(chatHistory), question, answer, HistoryLimit)
      ensures lastRetrievedDocs == old(lastRetrievedDocs) && lastInteractionTime == old(lastInteractionTime)
    {
      ghost var before := chatHistory;
      chatHistory := chatHistory + [Human(question), AI(answer)];
      if |chatHistory| > HistoryLimit {
        chatHistory := chatHistory[|chatHistory| - HistoryLimit..];
      }
      assert chatHistory == Record(before, question, answer, HistoryLimit);
      RecordKeepsPairs(before, question, answer, HistoryLimit);
    }
  }
}

=== FILE: chains.dfy ===
/** The chains both orchestrators call, as oracles, and the primary/fallback
    try block they share. An oracle is any total function from a call's inputs
    to what the call does (return a value or raise), so every property proved
    below holds whatever the models answer. */
module RagChains {
  import opened Common
  import opened History
  import opened DynamicRetriever
  import PyStr

  /** The query analyzer, a retriever chain (built by
      `create_dynamic_retriever_chain`, so it carries `top_n` and the model),
      and the question-answering chain of the given model. */
  datatype Oracles = Oracles(
    analyze: string -> Call<string>,
    retrieve: (Retriever, string, seq<Message>) -> Call<seq<Doc>>,
    answer: (ModelRole, string, seq<Message>, seq<Doc>) -> Call<string>)

  /** A call made to an oracle, with the inputs it was given and what it
      returned or raised. */
  datatype Event =
    | Analyze(query: string)
    | Retrieve(llm: ModelRole, chain: Retriever, input: string, history: seq<Message>, retrieved: Call<seq<Doc>>)
    | Answer(llm: ModelRole, input: string, history: seq<Message>, context: seq<Doc>, reply: Call<string>)

  predicate IsPrimaryCall(e: Event) {
    (e.Retrieve? || e.Answer?) && e.llm == Primary
  }

  predicate IsFallbackCall(e: Event) {
    (e.Retrieve? || e.Answer?) && e.llm == Fallback
  }

  /** `top_n` from the analyzer: `int(reply) + margin` (the margin is 3 in
      app/rag_orchestrator.py and absent, 0, in src/rag_orchestrator.py); the
      default when the reply is not an integer or the analyzer raised
      ValueError/TypeError; every other exception of the analyzer escapes. */
  function DynamicTopN(analysis: Call<string>, margin: int): (r: Call<int>)
    ensures r.Raise? <==> analysis.Raise? && analysis.error != ValueOrTypeError
    ensures r.Raise? ==> r.error == analysis.error
    ensures analysis == Raise(ValueOrTypeError) ==> r == Ok(DefaultRerankTopN)
    ensures analysis.Ok? ==> var n := PyStr.ParseInt(analysis.value);
      r == if n.Some? then Ok(n.value + margin) else Ok(DefaultRerankTopN)
  {
    if analysis.Raise? then
      if analysis.error == ValueOrTypeError then Ok(DefaultRerankTopN) else Raise(analysis.error)
    else
      var n := PyStr.ParseInt(analysis.value);
      if n.Some? then Ok(n.value + margin) else Ok(DefaultRerankTopN)
  }

  /** An analyzer reply that is the decimal form of a count, possibly padded
      with white space, gives that count plus the margin. */
  lemma CountedTopN(pre: string, n: int, post: string, margin: int)
    requires PyStr.AllSpace(pre) && PyStr.AllSpace(post)
    ensures DynamicTopN(Ok(pre + PyStr.ShowInt(n) + post), margin) == Ok(n + margin)
  {
    var reply := pre + PyStr.ShowInt(n) + post;
    PyStr.ParseShowInt(pre, n, post);
    assert PyStr.ParseInt(reply) == Some(n);
  }

  /** A reply without a digit (the analyzer's "default") gives the default. */
  lemma UncountedTopN(reply: string, margin: int)
    requires forall i :: 0 <= i < |reply| ==> !PyStr.IsDigit(reply[i])
    ensures DynamicTopN(Ok(reply), margin) == Ok(DefaultRerankTopN)
  {
    PyStr.ParseNeedsDigit(reply);
  }

  /** A reply that is not an integer literal once stripped (a sentence around
      the number, two numbers, a stray letter) gives the default. */
  lemma NonLiteralTopN(reply: string, margin: int)
    requires !PyStr.IsIntLiteral(PyStr.Strip(reply))
    ensures DynamicTopN(Ok(reply), margin) == Ok(DefaultRerankTopN)
  {
    PyStr.ParseIntIff(reply);
  }

  /** The result of running the chains: the documents of the last retrieval
      that returned (if any did), what the attempt returned or raised, and the
      calls made, in order. */
  datatype Attempt = Attempt(docs: Option<seq<Doc>>, reply: Call<string>, events: seq<Event>)

  /** One pass through the try block with model `llm`: retrieve through the
      dynamic chain built for `llm` and `topN`, with the raw user input; only
      when that returned, answer `qaInput` from exactly those documents. The
      pass returns or raises what its last call did. */
  function TryChains(o: Oracles, llm: ModelRole, topN: int, userInput: string, qaInput: string,
                     history: seq<Message>): (p: Attempt)
    ensures var chain := CreateDynamicRetrieverChain(topN, llm);
      p.events != [] && p.events[0] == Retrieve(llm, chain, userInput, history, o.retrieve(chain, userInput, history))
    ensures forall i :: 0 <= i < |p.events| ==> (p.events[i].Retrieve? || p.events[i].Answer?) && p.events[i].llm == llm
    ensures p.events[0].retrieved.Raise? ==> |p.events| == 1 && p.docs.None? && p.reply == Raise(p.events[0].retrieved.error)
    ensures p.events[0].retrieved.Ok? ==> var docs := p.events[0].retrieved.value;
      && p.docs == Some(docs) && |p.events| == 2
      && p.events[1] == Answer(llm, qaInput, history, docs, o.answer(llm, qaInput, history, docs))
      && p.reply == p.events[1].reply
  {
    var chain := CreateDynamicRetrieverChain(topN, llm);
    var first := Retrieve(llm, chain, userInput, history, o.retrieve(chain, userInput, history));
    match o.retrieve(chain, userInput, history)
    case Raise(e) => Attempt(None, Raise(e), [first])
    case Ok(docs) =>
      var reply := o.answer(llm, qaInput, history, docs);
      Attempt(Some(docs), reply, [first, Answer(llm, qaInput, history, docs, reply)])
  }

  /** The whole try/except: the primary pass, and on ResourceExhausted from it
      exactly one fallback pass; anything else the primary raises, and anything
      the fallback raises, is the attempt's outcome. */
  function WithFallback(o: Oracles, topN: int, userInput: string, qaInput: string,
                        history: seq<Message>): (a: Attempt)
    ensures var primary := TryChains(o, Primary, topN, userInput, qaInput, history);
      primary.reply != Raise(ResourceExhausted) ==> a == primary
    ensures var primary := TryChains(o, Primary, topN, userInput, qaInput, history);
      var fallback := TryChains(o, Fallback, topN, userInput, qaInput, history);
      primary.reply == Raise(ResourceExhausted) ==>
        a.reply == fallback.reply && a.events == primary.events + fallback.events
  {
    var primary := TryChains(o, Primary, topN, userInput, qaInput, history);
    if primary.reply == Raise(ResourceExhausted) then
      var fallback := TryChains(o, Fallback, topN, userInput, qaInput, history);
      var docs := if fallback.docs.Some? then fallback.docs else primary.docs;
      Attempt(docs, fallback.reply, primary.events + fallback.events)
    else
      primary
  }

  /** What a caller that stores each pass's documents over `docs0` ends up
      holding and returning: the primary pass's, or, after ResourceExhausted
      from it, the fallback pass's over those. */
  lemma FallbackOutcome(o: Oracles, topN: int, userInput: string, qaInput: string, history: seq<Message>,
                        docs0: seq<Doc>)
    ensures var primary := TryChains(o, Primary, topN, userInput, qaInput, history);
      var fallback := TryChains(o, Fallback, topN, userInput, qaInput, history);
      var a := WithFallback(o, topN, userInput, qaInput, history);
      var docs1 := primary.docs.GetOr(docs0);
      && (primary.reply != Raise(ResourceExhausted) ==> a.reply == primary.reply && a.docs.GetOr(docs0) == docs1)
      && (primary.reply == Raise(ResourceExhausted) ==> a.reply == fallback.reply && a.docs.GetOr(docs0) == fallback.docs.GetOr(docs1))
  {
  }

  /** The documents of the last retrieval in a trace that returned, if any:
      what `last_retrieved_docs` holds after those calls. */
  function LastRetrieved(events: seq<Event>): Option<seq<Doc>>
    decreases |events|
  {
    if events == [] then None
    else
      var e := events[|events| - 1];
      if e.Retrieve? && e.retrieved.Ok? then Some(e.retrieved.value) else LastRetrieved(events[..|events| - 1])
  }

  lemma {:induction false} LastRetrievedAppend(x: seq<Event>, y: seq<Event>)
    ensures LastRetrieved(x + y) == if LastRetrieved(y).Some? then LastRetrieved(y) else LastRetrieved(x)
    decreases |y|
  {
    if y != [] {
      var y' := y[..|y| - 1];
      assert (x + y)[..|x + y| - 1] == x + y';
      LastRetrievedAppend(x, y');
    } else {
      assert x + y == x;
    }
  }

  /** Every call the try block makes is made with the right inputs, and
      recorded with what the oracle gave back: each retrieval goes through the
      dynamic chain built for its model and `topN`, with the raw user input
      and the history; each answer call gets the QA input, the history and
      exactly the documents the retrieval just before it, on the same model,
      returned. */
  lemma FallbackCalls(o: Oracles, topN: int, userInput: string, qaInput: string, history: seq<Message>)
    ensures var ev := WithFallback(o, topN, userInput, qaInput, history).events;
      && 1 <= |ev| <= 4
      && (forall i :: 0 <= i < |ev| ==> ev[i].Retrieve? || ev[i].Answer?)
      && (forall i :: 0 <= i < |ev| && ev[i].Retrieve? ==>
            && ev[i].chain == CreateDynamicRetrieverChain(topN, ev[i].llm)
            && ev[i].input == userInput && ev[i].history == history
            && ev[i].retrieved == o.retrieve(ev[i].chain, userInput, history))
      && (forall i :: 0 <= i < |ev| && ev[i].Answer? ==>
            && ev[i].input == qaInput && ev[i].history == history
            && ev[i].reply == o.answer(ev[i].llm, qaInput, history, ev[i].context))
      && (forall i, j :: 0 <= j && i == j + 1 && i < |ev| && ev[i].Answer? ==>
            ev[j] == Retrieve(ev[i].llm, CreateDynamicRetrieverChain(topN, ev[i].llm), userInput, history, Ok(ev[i].context)))
  {
    var primary := TryChains(o, Primary, topN, userInput, qaInput, history);
    var fallback := TryChains(o, Fallback, topN, userInput, qaInput, history);
    var ev := WithFallback(o, topN, userInput, qaInput, history).events;
    if primary.reply == Raise(ResourceExhausted) {
      assert ev == primary.events + fallback.events;
      forall i | 0 <= i < |ev| ensures ev[i] == if i < |primary.events| then primary.events[i] else fallback.events[i - |primary.events|] {
      }
    }
  }

  /** The order of the models: the primary model is called first; once the
      fallback model has been called, every later call is on it; each model
      retrieves at most once; the fallback is used exactly when the primary
      pass raised ResourceExhausted, in which case the fallback made the last
      call; otherwise the attempt is the primary pass unchanged, whatever it
      returned or raised; ResourceExhausted escapes only from the fallback. */
  lemma FallbackDiscipline(o: Oracles, topN: int, userInput: string, qaInput: string, history: seq<Message>)
    ensures var ev := WithFallback(o, topN, userInput, qaInput, history).events;
      && ev != [] && IsPrimaryCall(ev[0])
      && (forall i :: 0 <= i < |ev| ==> IsPrimaryCall(ev[i]) || IsFallbackCall(ev[i]))
      && (forall i, j :: 0 <= i < j < |ev| && IsFallbackCall(ev[i]) ==> IsFallbackCall(ev[j]))
      && (forall i, j :: 0 <= i < j < |ev| && ev[i].Retrieve? && ev[j].Retrieve? ==> ev[i].llm != ev[j].llm)
    ensures var a := WithFallback(o, topN, userInput, qaInput, history);
      var primary := TryChains(o, Primary, topN, userInput, qaInput, history);
      && (IsFallbackCall(a.events[|a.events| - 1]) <==> primary.reply == Raise(ResourceExhausted))
      && ((exists i :: 0 <= i < |a.events| && IsFallbackCall(a.events[i])) <==> primary.reply == Raise(ResourceExhausted))
      && (primary.reply != Raise(ResourceExhausted) ==> a == primary)
      && (a.reply == Raise(ResourceExhausted) ==> IsFallbackCall(a.events[|a.events| - 1]))
  {
    var primary := TryChains(o, Primary, topN, userInput, qaInput, history);
    var fallback := TryChains(o, Fallback, topN, userInput, qaInput, history);
    var a := WithFallback(o, topN, userInput, qaInput, history);
    if primary.reply == Raise(ResourceExhausted) {
      assert a.events == primary.events + fallback.events;
      forall i | 0 <= i < |a.events|
        ensures a.events[i] == if i < |primary.events| then primary.events[i] else fallback.events[i - |primary.events|]
        ensures IsFallbackCall(a.events[i]) <==> i >= |primary.events|
      {
      }
      assert IsFallbackCall(a.events[|primary.events|]);
    } else {
      assert forall i :: 0 <= i < |a.events| ==> !IsFallbackCall(a.events[i]);
    }
  }

  /** A turn's trace past the analyzer call, read as the try/except: the
      primary model retrieves first; the fallback model is called, and from
      then on only it, exactly when the primary pass raised
      ResourceExhausted; the attempt's outcome is what the last call returned
      or raised, and ResourceExhausted escapes only from the fallback. */
  lemma AnalyzedFallback(o: Oracles, topN: int, userInput: string, qaInput: string, history: seq<Message>)
    ensures var a := WithFallback(o, topN, userInput, qaInput, history);
      var ev := [Analyze(userInput)] + a.events; var last := ev[|ev| - 1];
      var primary := TryChains(o, Primary, topN, userInput, qaInput, history);
      && |ev| >= 2 && ev[1].Retrieve? && ev[1].llm == Primary
      && ((exists i :: 1 <= i < |ev| && IsFallbackCall(ev[i])) <==> primary.reply == Raise(ResourceExhausted))
      && (forall i, j :: 1 <= i < j < |ev| && IsFallbackCall(ev[i]) ==> IsFallbackCall(ev[j]))
      && !last.Analyze?
      && (last.Retrieve? ==> a.reply == Raise(last.retrieved.error))
      && (last.Answer? ==> a.reply == last.reply)
      && (a.reply == Raise(ResourceExhausted) ==> IsFallbackCall(last))
  {
    var a := WithFallback(o, topN, userInput, qaInput, history);
    var ev := [Analyze(userInput)] + a.events;
    var primary := TryChains(o, Primary, topN, userInput, qaInput, history);
    FallbackDiscipline(o, topN, userInput, qaInput, history);
    FallbackResult(o, topN, userInput, qaInput, history);
    forall i | 1 <= i < |ev| ensures ev[i] == a.events[i - 1] {
    }
    assert a.events[0] == primary.events[0];
    assert ev[|ev| - 1] == a.events[|a.events| - 1];
    if primary.reply == Raise(ResourceExhausted) {
      assert IsFallbackCall(ev[|ev| - 1]);
    }
  }

  /** What the attempt reports: its documents are those of the last
      retrieval that returned; its outcome is what the last call returned or
      raised; a returned answer was produced from exactly the documents the
      retrieval just before it returned, and those are the attempt's. */
  lemma FallbackResult(o: Oracles, topN: int, userInput: string, qaInput: string, history: seq<Message>)
    ensures var a := WithFallback(o, topN, userInput, qaInput, history);
      && a.events != [] && a.docs == LastRetrieved(a.events)
      && var last := a.events[|a.events| - 1];
      && (last.Answer? ==> a.reply == last.reply)
      && (last.Retrieve? ==> last.retrieved.Raise? && a.reply == Raise(last.retrieved.error))
    ensures var a := WithFallback(o, topN, userInput, qaInput, history);
      a.reply.Ok? ==> |a.events| >= 2 && var last := a.events[|a.events| - 1];
        && last.Answer? && a.docs == Some(last.context)
        && a.events[|a.events| - 2]
           == Retrieve(last.llm, CreateDynamicRetrieverChain(topN, last.llm), userInput, history, Ok(last.context))
  {
    var primary := TryChains(o, Primary, topN, userInput, qaInput, history);
    var fallback := TryChains(o, Fallback, topN, userInput, qaInput, history);
    var a := WithFallback(o, topN, userInput, qaInput, history);
    PassRetrieved(primary);
    if primary.reply == Raise(ResourceExhausted) {
      PassRetrieved(fallback);
      LastRetrievedAppend(primary.events, fallback.events);
      assert a.events[|a.events| - 1] == fallback.events[|fallback.events| - 1];
      if |fallback.events| == 2 {
        assert a.events[|a.events| - 2] == fallback.events[0];
      }
    }
  }

  /** Within one pass, the documents reported are the last retrieved ones. */
  lemma PassRetrieved(p: Attempt)
    requires p.events != [] && p.events[0].Retrieve?
    requires p.events[0].retrieved.Raise? ==> |p.events| == 1 && p.docs.None?
    requires p.events[0].retrieved.Ok? ==> |p.events| == 2 && p.docs == Some(p.events[0].retrieved.value) && p.events[1].Answer?
    ensures p.docs == LastRetrieved(p.events)
  {
    assert p.events[..|p.events| - 1][..0] == [];
    if |p.events| == 2 {
      assert p.events[..1] == [p.events[0]];
    }
  }
}

=== FILE: common.dfy ===
/** Values shared by every part of the model: optional values, the outcome of a
    call into a language-model chain, the two model bindings, retrieved documents
    and the two tuning constants of the retrieval flow. */
module Common {

  datatype Option<+T> = None | Some(value: T) {
    function GetOr(default: T): T {
      match this
      case Some(v) => v
      case None => default
    }
  }

  /** The exception classes the controllers tell apart. `ResourceExhausted` is
      the provider's quota signal, the only one that triggers a fallback;
      `ValueOrTypeError` is Python's ValueError or TypeError, which the query
      analysis step swallows; `OtherError` is every other exception. */
  datatype Error = ResourceExhausted | ValueOrTypeError | OtherError

  /** What one call into an external chain does: return a value or raise. */
  datatype Call<+T> = Ok(value: T) | Raise(error: Error)

  /** Which model binding a capability is invoked with. */
  datatype ModelRole = Primary | Fallback

  /** A retrieved recipe chunk; only its text matters to the controllers. */
  datatype Doc = Doc(pageContent: string)

  /** DEFAULT_RERANK_TOP_N: the rerank cutoff when the analyzer gives no count. */
  const DefaultRerankTopN: int := 4

  /** DEFAULT_RETRIEVER_TOP_K: the base similarity-search breadth. */
  const DefaultRetrieverTopK: int := 10
}

=== FILE: history.dfy ===
/** Conversation history as the controllers keep it: a list of human and AI
    messages that only ever grows by one question/answer pair and is then cut
    back to its most recent entries. */
module History {

  datatype Message = Human(content: string) | AI(content: string)

  /** `s[len(s) - n:]` when `len(s) > n`, otherwise `s`: the last `min(n, len(s))`
      entries, in order. */
  function KeepLast<T>(s: seq<T>, n: nat): (r: seq<T>)
    ensures |r| == if |s| > n then n else |s|
    ensures forall i :: 0 <= i < |r| ==> r[i] == s[|s| - |r| + i]
  {
    if |s| > n then s[|s| - n..] else s
  }

  /** Human and AI messages alternate, starting with a human one, and come in
      whole pairs. */
  ghost predicate WellPaired(h: seq<Message>) {
    |h| % 2 == 0 && forall i :: 0 <= i < |h| ==> (h[i].Human? <==> i % 2 == 0)
  }

  /** Appends `Human(question)` and `AI(answer)`, then keeps the last `limit`
      entries (limit 20 in both orchestrators, 10 in the command-line loop). */
  function Record(h: seq<Message>, question: string, answer: string, limit: nat): (r: seq<Message>)
    ensures |r| == if |h| + 2 > limit then limit else |h| + 2
    ensures |h| + 2 <= limit ==> r == h + [Human(question), AI(answer)]
    ensures limit >= 2 ==> r[|r| - 2..] == [Human(question), AI(answer)]
    ensures forall i :: 0 <= i < |r| - 2 ==> r[i] == h[|h| + 2 - |r| + i]
  {
    KeepLast(h + [Human(question), AI(answer)], limit)
  }

  /** Only pairs are appended and the bound is even, so the cut never splits a
      pair: the history stays well paired. */
  lemma RecordKeepsPairs(h: seq<Message>, question: string, answer: string, limit: nat)
    requires WellPaired(h) && limit % 2 == 0
    ensures WellPaired(Record(h, question, answer, limit))
  {
    AppendPairKeepsPairs(h, question, answer);
    KeepLastKeepsPairs(h + [Human(question), AI(answer)], limit);
  }

  lemma AppendPairKeepsPairs(h: seq<Message>, question: string, answer: string)
    requires WellPaired(h)
    ensures WellPaired(h + [Human(question), AI(answer)])
  {
    var full := h + [Human(question), AI(answer)];
    forall j | 0 <= j < |full| ensures full[j].Human? <==> j % 2 == 0 {
      if j < |h| {
        assert full[j] == h[j];
      }
    }
  }

  /** Cutting an even number of entries off the front keeps the pairing. */
  lemma KeepLastKeepsPairs(s: seq<Message>, n: nat)
    requires WellPaired(s) && n % 2 == 0
    ensures WellPaired(KeepLast(s, n))
  {
    var r := KeepLast(s, n);
    var d := |s| - |r|;
    assert d % 2 == 0;
    forall i | 0 <= i < |r| ensures r[i].Human? <==> i % 2 == 0 {
      assert r[i] == s[d + i];
      EvenShift(d, i);
    }
  }

  lemma EvenShift(d: int, i: int)
    requires d % 2 == 0
    ensures (d + i) % 2 == i % 2
  {
  }
}

=== FILE: main_context.dfy ===
/** The command-line assistant of main_context.py: the evaluation side car
    `run_evaluation` (a judge model labels the last answer, a scorer model turns
    the judge's reasoning into a percentage) and the chat loop of `main`, which
    answers questions with a retrieval chain, keeps a short history and
    understands the `quit` and `/eval` commands. */
module MainContext {
  import opened Common
  import opened History
  import PyStr

  // ------------------------------------------------------------ one retry

  /** The result of a call made with the quota fallback, and the models it
      was made with, in order. */
  datatype Tried<T> = Tried(result: Call<T>, models: seq<ModelRole>)

  /** `try: call(primary) except ResourceExhausted: call(fallback)`. */
  function WithRetry<T>(call: ModelRole -> Call<T>): (t: Tried<T>)
    ensures t.models == [Primary] || t.models == [Primary, Fallback]
    ensures t.models == [Primary, Fallback] <==> call(Primary) == Raise(ResourceExhausted)
    ensures t.result == call(t.models[|t.models| - 1])
  {
    if call(Primary) == Raise(ResourceExhausted) then Tried(call(Fallback), [Primary, Fallback])
    else Tried(call(Primary), [Primary])
  }

  // ------------------------------------------------------------ run_evaluation

  /** The dictionary the retrieval chain returns, reduced to the two keys the
      loop reads; `None` is a missing key. */
  datatype Response = Response(context: Option<seq<Doc>>, answer: Option<string>)

  /** What the judge's `evaluate_strings` returns: an optional score and an
      optional reasoning text. */
  datatype JudgeResult = JudgeResult(score: Option<real>, reasoning: Option<string>)

  datatype ScoreInput = ScoreInput(question: string, answer: string, reasoning: string)

  /** The judge (with its prediction, input and reference) and the scorer
      chain, for the given model. The scorer may return `None`, which
      `filter` then rejects with a TypeError. */
  datatype EvalOracles = EvalOracles(
    judge: (ModelRole, string, string, string) -> Call<JudgeResult>,
    scorer: (ModelRole, ScoreInput) -> Call<Option<string>>)

  datatype EvalEvent =
    | JudgeCall(llm: ModelRole, prediction: string, input: string, reference: string)
    | ScorerCall(llm: ModelRole, scoreInput: ScoreInput)

  datatype Verdict = Accurate | NotAccurate | UnknownVerdict

  /** What the evaluation logs: skipped, or the judge's verdict and reasoning
      and the percentage score, if one could be read. */
  datatype EvalOutcome =
    | Skipped
    | Evaluated(verdict: Verdict, reasoning: Option<string>, score: Option<int>)

  datatype EvalRun = EvalRun(outcome: Call<EvalOutcome>, events: seq<EvalEvent>)

  /** `score_map.get(score, 'UNKNOWN')` with `{1.0: ACCURATE, 0.0: NOT ACCURATE}`. */
  function VerdictOf(score: Option<real>): (v: Verdict)
    ensures v == Accurate <==> score == Some(1.0)
    ensures v == NotAccurate <==> score == Some(0.0)
  {
    if score == Some(1.0) then Accurate
    else if score == Some(0.0) then NotAccurate
    else UnknownVerdict
  }

  const ContextSeparator: string := "\n\n---\n\n"

  /** `"\n\n---\n\n".join(doc.page_content for doc in docs)`. */
  function ContextText(docs: seq<Doc>): (r: string)
    ensures docs != [] ==> docs[0].pageContent <= r
    ensures docs != [] ==> var last := docs[|docs| - 1].pageContent;
      |last| <= |r| && r[|r| - |last|..] == last
  {
    if docs == [] then ""
    else if |docs| == 1 then docs[0].pageContent
    else ContextText(docs[..|docs| - 1]) + ContextSeparator + docs[|docs| - 1].pageContent
  }

  function TotalContentLength(docs: seq<Doc>): nat {
    if docs == [] then 0 else TotalContentLength(docs[..|docs| - 1]) + |docs[|docs| - 1].pageContent|
  }

  /** The reference text holds every document's text and one separator
      between each two of them, nothing more. */
  lemma {:induction false} ContextTextLength(docs: seq<Doc>)
    requires docs != []
    ensures |ContextText(docs)| == TotalContentLength(docs) + (|docs| - 1) * |ContextSeparator|
    decreases |docs|
  {
    if |docs| > 1 {
      ContextTextLength(docs[..|docs| - 1]);
    } else {
      assert docs[..0] == [];
    }
  }

  /** Joining two non-empty runs of documents puts one separator between
      their texts. */
  lemma {:induction false} ContextTextAppend(a: seq<Doc>, b: seq<Doc>)
    requires a != [] && b != []
    ensures ContextText(a + b) == ContextText(a) + ContextSeparator + ContextText(b)
    decreases |b|
  {
    var init, d := b[..|b| - 1], b[|b| - 1];
    assert b == init + [d];
    assert a + b == (a + init) + [d];
    ContextTextSnoc(a + init, d);
    if init != [] {
      ContextTextAppend(a, init);
      ContextTextSnoc(init, d);
      var head, mid := ContextText(a) + ContextSeparator, ContextText(init);
      Regroup(head, mid, ContextSeparator + d.pageContent);
      Regroup(head + mid, ContextSeparator, d.pageContent);
      Regroup(mid, ContextSeparator, d.pageContent);
    }
  }

  lemma ContextTextSnoc(init: seq<Doc>, d: Doc)
    requires init != []
    ensures ContextText(init + [d]) == ContextText(init) + ContextSeparator + d.pageContent
  {
    assert (init + [d])[..|init + [d]| - 1] == init;
  }

  /** `int("".join(filter(str.isdigit, raw)))`, with ValueError (no digit)
      and TypeError (no output) both giving no score. */
  function ParseScore(raw: Option<string>): (r: Option<int>)
    ensures raw.None? ==> r.None?
  {
    match raw
    case None => None
    case Some(s) => PyStr.ParseInt(PyStr.KeepDigits(s))
  }

  /** The score is the number the digits of the output spell, in their order,
      whatever else the output contains; an output without digits has none. */
  lemma ScoreOfDigits(s: string)
    ensures var ds := PyStr.KeepDigits(s);
      ParseScore(Some(s)) == if ds == [] then None else Some(PyStr.DigitsValue(ds))
  {
    var ds := PyStr.KeepDigits(s);
    if ds != [] {
      PyStr.StripPadded([], ds, []);
      assert [] + ds + [] == ds;
      PyStr.ParseStrippedDigits(ds);
    }
  }

  /** A score written as a plain number and followed or preceded by text
      without digits (`"85%"`) is read back exactly. */
  lemma ScoreRoundTrip(pre: string, n: nat, post: string)
    requires forall i :: 0 <= i < |pre| ==> !PyStr.IsDigit(pre[i])
    requires forall i :: 0 <= i < |post| ==> !PyStr.IsDigit(post[i])
    ensures ParseScore(Some(pre + PyStr.ShowNat(n) + post)) == Some(n)
  {
    var ds := PyStr.ShowNat(n);
    PyStr.KeepDigitsAppend(pre, ds);
    PyStr.KeepDigitsAppend(pre + ds, post);
    PyStr.KeepDigitsOfNonDigits(pre);
    PyStr.KeepDigitsOfNonDigits(post);
    PyStr.KeepDigitsOfDigits(ds);
    assert PyStr.KeepDigits(pre + ds + post) == ds;
    ScoreOfDigits(pre + ds + post);
    PyStr.ShowNatValue(n);
  }

  /** The digits of the whole output are concatenated, so a second number in
      the output changes the score. */
  lemma ScoreJoinsNumbers()
    ensures ParseScore(Some("85/100")) == Some(85100)
  {
    assert PyStr.KeepDigits("85/100") == "85100";
    ScoreOfDigits("85/100");
    assert PyStr.DigitsValue("85100") == 85100 by {
      assert "85100"[..4] == "8510";
      assert "8510"[..3] == "851";
      assert "851"[..2] == "85";
      assert "85"[..1] == "8";
      assert "8"[..0] == "";
    }
  }

  /** A trailing percent sign is ignored; "0" is a score; an output without a
      digit has none, and neither has a missing output. */
  lemma ScoreExamples()
    ensures ParseScore(Some("85%")) == Some(85)
    ensures ParseScore(Some("0")) == Some(0)
    ensures ParseScore(Some("N/A")) == None
    ensures ParseScore(None) == None
  {
    ScoreRoundTrip("", 85, "%");
    assert "" + PyStr.ShowNat(85) + "%" == "85%";
    ScoreRoundTrip("", 0, "");
    assert "" + PyStr.ShowNat(0) + "" == "0";
    PyStr.KeepDigitsOfNonDigits("N/A");
    ScoreOfDigits("N/A");
  }

  predicate HasContext(response: Response) {
    response.context.Some? && response.context.value != []
  }

  function JudgeCalls(models: seq<ModelRole>, prediction: string, input: string, reference: string): (r: seq<EvalEvent>)
    ensures |r| == |models|
    ensures forall i :: 0 <= i < |r| ==> r[i] == JudgeCall(models[i], prediction, input, reference)
  {
    seq(|models|, i requires 0 <= i < |models| => JudgeCall(models[i], prediction, input, reference))
  }

  function ScorerCalls(models: seq<ModelRole>, scoreInput: ScoreInput): (r: seq<EvalEvent>)
    ensures |r| == |models|
    ensures forall i :: 0 <= i < |r| ==> r[i] == ScorerCall(models[i], scoreInput)
  {
    seq(|models|, i requires 0 <= i < |models| => ScorerCall(models[i], scoreInput))
  }

  /** `run_evaluation(user_input, response)`. */
  function RunEvaluation(userInput: string, response: Response, o: EvalOracles): (r: EvalRun)
    ensures r.outcome == Ok(Skipped) <==> !HasContext(response)
    ensures !HasContext(response) ==> r.events == []
  {
    if !HasContext(response) then EvalRun(Ok(Skipped), [])
    else if response.answer.None? then EvalRun(Raise(OtherError), [])
    else
      var answer := response.answer.value;
      var reference := ContextText(response.context.value);
      var judged := WithRetry((m: ModelRole) => o.judge(m, answer, userInput, reference));
      var judgeEvents := JudgeCalls(judged.models, answer, userInput, reference);
      match judged.result
      case Raise(e) => EvalRun(Raise(e), judgeEvents)
      case Ok(verdict) =>
        var scoreInput := ScoreInput(userInput, answer, verdict.reasoning.GetOr(""));
        var scored := WithRetry((m: ModelRole) => o.scorer(m, scoreInput));
        var events := judgeEvents + ScorerCalls(scored.models, scoreInput);
        match scored.result
        case Raise(e) => EvalRun(Raise(e), events)
        case Ok(raw) => EvalRun(Ok(Evaluated(VerdictOf(verdict.score), verdict.reasoning, ParseScore(raw))), events)
  }

  /** The judge's reply once the quota fallback has run. */
  function JudgeReply(userInput: string, response: Response, o: EvalOracles): Call<JudgeResult>
    requires HasContext(response) && response.answer.Some?
  {
    var answer := response.answer.value;
    var reference := ContextText(response.context.value);
    var first := o.judge(Primary, answer, userInput, reference);
    if first == Raise(ResourceExhausted) then o.judge(Fallback, answer, userInput, reference) else first
  }

  /** With a context (and an answer), the judge is asked first, with the
      answer, the question and the joined documents, on the judge model and
      once more on the fallback model exactly when that raised
      ResourceExhausted; any other failure, or a failure of the fallback,
      ends the evaluation before the scorer is asked. */
  lemma EvaluationJudge(userInput: string, response: Response, o: EvalOracles)
    requires HasContext(response) && response.answer.Some?
    ensures var r := RunEvaluation(userInput, response, o);
      var answer := response.answer.value; var reference := ContextText(response.context.value);
      && 1 <= |r.events| <= 4
      && r.events[0] == JudgeCall(Primary, answer, userInput, reference)
      && (o.judge(Primary, answer, userInput, reference) == Raise(ResourceExhausted) <==>
            |r.events| >= 2 && r.events[1] == JudgeCall(Fallback, answer, userInput, reference))
      && var judged := JudgeReply(userInput, response, o);
      && (judged.Raise? ==> r.outcome == Raise(judged.error) && forall i :: 0 <= i < |r.events| ==> r.events[i].JudgeCall?)
  {
    var r := RunEvaluation(userInput, response, o);
    var answer := response.answer.value;
    var reference := ContextText(response.context.value);
    var judged := WithRetry((m: ModelRole) => o.judge(m, answer, userInput, reference));
    var judgeEvents := JudgeCalls(judged.models, answer, userInput, reference);
    if judged.result.Ok? {
      var verdict := judged.result.value;
      var scoreInput := ScoreInput(userInput, answer, verdict.reasoning.GetOr(""));
      var scored := WithRetry((m: ModelRole) => o.scorer(m, scoreInput));
      assert r.events == judgeEvents + ScorerCalls(scored.models, scoreInput);
    } else {
      assert r.events == judgeEvents;
    }
  }

  /** After a judgement the scorer is asked with the question, the answer and
      the judge's reasoning (`''` when it gave none), on the scorer model and
      once more on the fallback model exactly when that raised
      ResourceExhausted; the verdict reported is the judge's score through the
      label map, the percentage the scorer's digits. */
  lemma EvaluationScore(userInput: string, response: Response, o: EvalOracles)
    requires HasContext(response) && response.answer.Some?
    requires JudgeReply(userInput, response, o).Ok?
    ensures var r := RunEvaluation(userInput, response, o);
      var verdict := JudgeReply(userInput, response, o).value;
      var si := ScoreInput(userInput, response.answer.value, verdict.reasoning.GetOr(""));
      var first := o.scorer(Primary, si);
      var scored := if first == Raise(ResourceExhausted) then o.scorer(Fallback, si) else first;
      && (forall i :: 0 <= i < |r.events| && r.events[i].ScorerCall? ==> r.events[i].scoreInput == si)
      && r.events[|r.events| - 1] == ScorerCall(if first == Raise(ResourceExhausted) then Fallback else Primary, si)
      && (first == Raise(ResourceExhausted) ==> r.events[|r.events| - 2] == ScorerCall(Primary, si))
      && (scored.Raise? ==> r.outcome == Raise(scored.error))
      && (scored.Ok? ==> r.outcome == Ok(Evaluated(VerdictOf(verdict.score), verdict.reasoning, ParseScore(scored.value))))
  {
    var r := RunEvaluation(userInput, response, o);
    var answer := response.answer.value;
    var reference := ContextText(response.context.value);
    var judged := WithRetry((m: ModelRole) => o.judge(m, answer, userInput, reference));
    var judgeEvents := JudgeCalls(judged.models, answer, userInput, reference);
    var verdict := judged.result.value;
    var scoreInput := ScoreInput(userInput, answer, verdict.reasoning.GetOr(""));
    var scored := WithRetry((m: ModelRole) => o.scorer(m, scoreInput));
    var scorerEvents := ScorerCalls(scored.models, scoreInput);
    assert r.events == judgeEvents + scorerEvents;
    forall i | 0 <= i < |r.events| && r.events[i].ScorerCall?
      ensures r.events[i].scoreInput == scoreInput
    {
      if i >= |judgeEvents| {
        assert r.events[i] == scorerEvents[i - |judgeEvents|];
      }
    }
  }

  /** The whole trace of an evaluation with context and answer: the judge on
      the judge model, once more on the fallback model exactly when that
      raised ResourceExhausted; then, only when the judge returned, the
      scorer in the same way; no other call. */
  lemma EvaluationTrace(userInput: string, response: Response, o: EvalOracles)
    requires HasContext(response) && response.answer.Some?
    ensures var r := RunEvaluation(userInput, response, o);
      var answer := response.answer.value; var reference := ContextText(response.context.value);
      var jfirst := o.judge(Primary, answer, userInput, reference);
      var judgeEvents :=
        JudgeCalls(if jfirst == Raise(ResourceExhausted) then [Primary, Fallback] else [Primary], answer, userInput, reference);
      var judged := JudgeReply(userInput, response, o);
      && (judged.Raise? ==> r.events == judgeEvents)
      && (judged.Ok? ==>
            var si := ScoreInput(userInput, answer, judged.value.reasoning.GetOr(""));
            var first := o.scorer(Primary, si);
            r.events == judgeEvents + ScorerCalls(if first == Raise(ResourceExhausted) then [Primary, Fallback] else [Primary], si))
  {
    var answer := response.answer.value;
    var reference := ContextText(response.context.value);
    var judged := WithRetry((m: ModelRole) => o.judge(m, answer, userInput, reference));
    assert judged.models == if o.judge(Primary, answer, userInput, reference) == Raise(ResourceExhausted)
      then [Primary, Fallback] else [Primary];
    if judged.result.Ok? {
      var scoreInput := ScoreInput(userInput, answer, judged.result.value.reasoning.GetOr(""));
      var scored := WithRetry((m: ModelRole) => o.scorer(m, scoreInput));
      assert scored.models == if o.scorer(Primary, scoreInput) == Raise(ResourceExhausted)
        then [Primary, Fallback] else [Primary];
    }
  }

  // ------------------------------------------------------------ the chat loop

  /** The primary and the fallback retrieval chain, and the evaluators. */
  datatype LoopOracles = LoopOracles(rag: (ModelRole, string, seq<Message>) -> Call<Response>, eval: EvalOracles)

  /** `chat_history`, `last_user_input` and `last_response`. */
  datatype LoopState = LoopState(history: seq<Message>, lastUserInput: Option<string>, lastResponse: Option<Response>)

  const InitialLoop: LoopState := LoopState([], None, None)

  const LoopHistoryLimit: nat := 10

  /** How `main` ends: `quit`, or an exception that reaches the outer handler
      (`sys.exit(1)`); the end of the input is Python's EOFError there. */
  datatype Exit = Quit | Crashed(error: Error)

  datatype LoopEvent =
    | RagCall(llm: ModelRole, input: string, history: seq<Message>)
    | EvaluationRun(question: string, response: Response)

  datatype StepResult = StepResult(state: LoopState, stop: Option<Exit>, events: seq<LoopEvent>)

  datatype RunResult = RunResult(exit: Exit, state: LoopState, events: seq<LoopEvent>)

  /** Python truthiness of `last_user_input`. */
  predicate Asked(s: LoopState) {
    s.lastUserInput.Some? && s.lastUserInput.value != "" && s.lastResponse.Some?
  }

  function RagCalls(models: seq<ModelRole>, input: string, history: seq<Message>): (r: seq<LoopEvent>)
    ensures |r| == |models|
    ensures forall i :: 0 <= i < |r| ==> r[i] == RagCall(models[i], input, history)
  {
    seq(|models|, i requires 0 <= i < |models| => RagCall(models[i], input, history))
  }

  /** One pass of the `while True` body on the line `u`. */
  function Step(s: LoopState, u: string, evaluate: bool, o: LoopOracles): (r: StepResult)
    ensures r.stop == Some(Quit) <==> PyStr.Lower(u) == "quit"
  {
    if PyStr.Lower(u) == "quit" then StepResult(s, Some(Quit), [])
    else if PyStr.Lower(u) == "/eval" then
      if Asked(s) then StepResult(s, None, [EvaluationRun(s.lastUserInput.value, s.lastResponse.value)])
      else StepResult(s, None, [])
    else
      var tried := WithRetry((m: ModelRole) => o.rag(m, u, s.history));
      var ragEvents := RagCalls(tried.models, u, s.history);
      match tried.result
      case Raise(e) => StepResult(s, Some(Crashed(e)), ragEvents)
      case Ok(response) =>
        var next := LoopState(Record(s.history, u, response.answer.GetOr(""), LoopHistoryLimit), Some(u), Some(response));
        if !evaluate then StepResult(next, None, ragEvents)
        else
          var outcome := RunEvaluation(u, response, o.eval).outcome;
          var events := ragEvents + [EvaluationRun(u, response)];
          if outcome.Raise? && outcome.error != ResourceExhausted then StepResult(next, Some(Crashed(outcome.error)), events)
          else StepResult(next, None, events)
  }

  /** A pass of the loop either keeps the state or replaces it by the record
      of this line: the line as the last question, a response, and the
      history with the exchange appended and cut back to 10 messages. */
  lemma StepRecords(s: LoopState, u: string, evaluate: bool, o: LoopOracles)
    ensures var r := Step(s, u, evaluate, o);
      || r.state == s
      || (&& r.state.lastUserInput == Some(u) && r.state.lastResponse.Some?
          && r.state.history == Record(s.history, u, r.state.lastResponse.value.answer.GetOr(""), LoopHistoryLimit))
  {
  }

  /** The loop over the lines `inputs`, from state `s`. */
  function Run(s: LoopState, inputs: seq<string>, evaluate: bool, o: LoopOracles): (r: RunResult)
    ensures r.exit == Quit ==> exists i :: 0 <= i < |inputs| && PyStr.Lower(inputs[i]) == "quit"
    ensures inputs == [] ==> r.state == s && r.events == []
    decreases |inputs|
  {
    if inputs == [] then RunResult(Crashed(OtherError), s, [])
    else
      var st := Step(s, inputs[0], evaluate, o);
      if st.stop.Some? then RunResult(st.stop.value, st.state, st.events)
      else
        var rest := Run(st.state, inputs[1..], evaluate, o);
        RunResult(rest.exit, rest.state, st.events + rest.events)
  }

  /** `quit`, in any capitalisation, ends the loop and changes nothing. */
  lemma StepQuit(s: LoopState, u: string, evaluate: bool, o: LoopOracles)
    requires PyStr.EqualsIgnoringCase(u, "quit")
    ensures Step(s, u, evaluate, o) == StepResult(s, Some(Quit), [])
  {
    PyStr.LowerEqualsIff(u, "quit");
  }

  /** `/eval`, in any capitalisation, never changes the state or stops the
      loop, and runs the evaluation, on the last question and response,
      exactly when a question has been answered before. */
  lemma StepEvaluate(s: LoopState, u: string, evaluate: bool, o: LoopOracles)
    requires PyStr.EqualsIgnoringCase(u, "/eval")
    ensures var r := Step(s, u, evaluate, o);
      && r.state == s && r.stop == None
      && (r.events != [] <==> Asked(s))
      && (Asked(s) ==> r.events == [EvaluationRun(s.lastUserInput.value, s.lastResponse.value)])
  {
    PyStr.LowerEqualsIff(u, "/eval");
    PyStr.LowerEqualsIff(u, "quit");
  }

  /** Any other line is a question: the primary chain is asked with the raw
      line and the history, the fallback chain once more exactly when that
      raised ResourceExhausted; any other failure ends the loop; an answer
      is recorded with the question (an absent answer as `""`), the history
      cut back to 10 messages, and the automatic evaluation (when enabled)
      ends the loop only on a failure other than ResourceExhausted. */
  lemma StepQuestion(s: LoopState, u: string, evaluate: bool, o: LoopOracles)
    requires !PyStr.EqualsIgnoringCase(u, "quit") && !PyStr.EqualsIgnoringCase(u, "/eval")
    ensures var r := Step(s, u, evaluate, o); var first := o.rag(Primary, u, s.history);
      && 1 <= |r.events|
      && r.events[0] == RagCall(Primary, u, s.history)
      && (first == Raise(ResourceExhausted) <==> |r.events| >= 2 && r.events[1] == RagCall(Fallback, u, s.history))
      && var answered := if first == Raise(ResourceExhausted) then o.rag(Fallback, u, s.history) else first;
      && (answered.Raise? ==> r.stop == Some(Crashed(answered.error)) && r.state == s)
      && (answered.Ok? ==>
            && r.state.history == Record(s.history, u, answered.value.answer.GetOr(""), LoopHistoryLimit)
            && r.state.lastUserInput == Some(u) && r.state.lastResponse == Some(answered.value)
            && (r.stop.Some? <==> evaluate && var e := RunEvaluation(u, answered.value, o.eval).outcome;
                                  e.Raise? && e.error != ResourceExhausted))
  {
    PyStr.LowerEqualsIff(u, "/eval");
    PyStr.LowerEqualsIff(u, "quit");
  }

  /** A judge that can only raise TypeError (which is what building it does
      when it is given a model name it does not accept) ends an evaluating
      loop at the first answer that came with context: only ResourceExhausted
      is caught around the automatic evaluation. */
  lemma JudgeTypeErrorEndsLoop(s: LoopState, u: string, o: LoopOracles)
    requires !PyStr.EqualsIgnoringCase(u, "quit") && !PyStr.EqualsIgnoringCase(u, "/eval")
    requires forall m, p, q, ref :: o.eval.judge(m, p, q, ref) == Raise(ValueOrTypeError)
    requires var first := o.rag(Primary, u, s.history);
      first.Ok? && HasContext(first.value) && first.value.answer.Some?
    ensures Step(s, u, true, o).stop == Some(Crashed(ValueOrTypeError))
    ensures Step(s, u, false, o).stop == None
  {
    var response := o.rag(Primary, u, s.history).value;
    StepQuestion(s, u, true, o);
    StepQuestion(s, u, false, o);
    EvaluationJudge(u, response, o.eval);
  }

  /** The loop keeps its history well paired and at most 10 messages long. */
  lemma {:induction false} RunKeepsPairs(s: LoopState, inputs: seq<string>, evaluate: bool, o: LoopOracles)
    requires WellPaired(s.history) && |s.history| <= LoopHistoryLimit
    ensures var h := Run(s, inputs, evaluate, o).state.history; WellPaired(h) && |h| <= LoopHistoryLimit
    decreases |inputs|
  {
    if inputs != [] {
      var st := Step(s, inputs[0], evaluate, o);
      StepKeepsPairs(s, inputs[0], evaluate, o);
      if st.stop.None? {
        RunKeepsPairs(st.state, inputs[1..], evaluate, o);
      }
    }
  }

  lemma StepKeepsPairs(s: LoopState, u: string, evaluate: bool, o: LoopOracles)
    requires WellPaired(s.history) && |s.history| <= LoopHistoryLimit
    ensures var h := Step(s, u, evaluate, o).state.history; WellPaired(h) && |h| <= LoopHistoryLimit
  {
    var r := Step(s, u, evaluate, o);
    if r.state.history != s.history {
      var tried := WithRetry((m: ModelRole) => o.rag(m, u, s.history));
      RecordKeepsPairs(s.history, u, tried.result.value.answer.GetOr(""), LoopHistoryLimit);
    }
  }

  lemma Regroup<T>(a: seq<T>, b: seq<T>, c: seq<T>)
    ensures a + (b + c) == (a + b) + c
  {
  }

  /** The loop runs one pass of its body, then, unless that stopped it, the
      rest of the lines. */
  lemma RunStep(s: LoopState, inputs: seq<string>, evaluate: bool, o: LoopOracles)
    requires inputs != []
    ensures var st := Step(s, inputs[0], evaluate, o); var rest := Run(st.state, inputs[1..], evaluate, o);
      Run(s, inputs, evaluate, o)
        == if st.stop.Some? then RunResult(st.stop.value, st.state, st.events)
           else RunResult(rest.exit, rest.state, st.events + rest.events)
  {
  }

  /** `main`'s chat loop over the lines `inputs` (what `input()` returns, in
      order) with `--evaluate` given as `evaluate`. */
  method ChatLoop(inputs: seq<string>, evaluate: bool, o: LoopOracles)
    returns (exit: Exit, chatHistory: seq<Message>, events: seq<LoopEvent>)
    ensures var r := Run(InitialLoop, inputs, evaluate, o);
      exit == r.exit && chatHistory == r.state.history && events == r.events
    ensures WellPaired(chatHistory) && |chatHistory| <= LoopHistoryLimit
  {
    var lastUserInput: Option<string> := None;
    var lastResponse: Option<Response> := None;
    chatHistory := [];
    events := [];
    var i := 0;
    while i < |inputs|
      invariant 0 <= i <= |inputs|
      invariant WellPaired(chatHistory) && |chatHistory| <= LoopHistoryLimit
      invariant var r := Run(LoopState(chatHistory, lastUserInput, lastResponse), inputs[i..], evaluate, o);
        Run(InitialLoop, inputs, evaluate, o) == RunResult(r.exit, r.state, events + r.events)
      decreases |inputs| - i
    {
      ghost var s := LoopState(chatHistory, lastUserInput, lastResponse);
      ghost var events0 := events;
      RunStep(s, inputs[i..], evaluate, o);
      assert inputs[i..][0] == inputs[i] && inputs[i..][1..] == inputs[i + 1..];
      var userInput := inputs[i];
      i := i + 1;
      ghost var st := Step(s, userInput, evaluate, o);

      if PyStr.Lower(userInput) == "quit" {
        return Quit, chatHistory, events;
      }

      if PyStr.Lower(userInput) == "/eval" {
        if lastUserInput.Some? && lastUserInput.value != "" && lastResponse.Some? {
          // every exception of the evaluation is caught and logged
          events := events + [EvaluationRun(lastUserInput.value, lastResponse.value)];
        }
        assert events == events0 + st.events;
        Regroup(events0, st.events, Run(s, inputs[i..], evaluate, o).events);
        continue;
      }

      var stop, more;
      chatHistory, lastUserInput, lastResponse, stop, more := AskQuestion(userInput, chatHistory, lastUserInput, lastResponse, evaluate, o);
      events := events + more;
      if stop.Some? {
        return stop.value, chatHistory, events;
      }
      Regroup(events0, st.events, Run(st.state, inputs[i..], evaluate, o).events);
    }
    // `input()` at the end of the input raises EOFError, caught by the outer handler
    exit := Crashed(OtherError);
  }

  /** The question branch of the loop body: ask the retrieval chain (falling
      back once on ResourceExhausted), record the exchange, remember it for
      `/eval`, and run the automatic evaluation when enabled. A `stop` is the
      exception that reaches the outer handler. */
  method AskQuestion(userInput: string, chatHistory: seq<Message>, lastUserInput: Option<string>,
                     lastResponse: Option<Response>, evaluate: bool, o: LoopOracles)
    returns (history: seq<Message>, newLastUserInput: Option<string>, newLastResponse: Option<Response>,
             stop: Option<Exit>, events: seq<LoopEvent>)
    requires PyStr.Lower(userInput) != "quit" && PyStr.Lower(userInput) != "/eval"
    requires WellPaired(chatHistory) && |chatHistory| <= LoopHistoryLimit
    ensures Step(LoopState(chatHistory, lastUserInput, lastResponse), userInput, evaluate, o)
      == StepResult(LoopState(history, newLastUserInput, newLastResponse), stop, events)
    ensures WellPaired(history) && |history| <= LoopHistoryLimit
  {
    history, newLastUserInput, newLastResponse := chatHistory, lastUserInput, lastResponse;
    var response := o.rag(Primary, userInput, chatHistory);
    events := [RagCall(Primary, userInput, chatHistory)];
    if response == Raise(ResourceExhausted) {
      response := o.rag(Fallback, userInput, chatHistory);
      events := events + [RagCall(Fallback, userInput, chatHistory)];
    }
    ghost var tried := WithRetry((m: ModelRole) => o.rag(m, userInput, chatHistory));
    assert response == tried.result && events == RagCalls(tried.models, userInput, chatHistory);
    if response.Raise? {
      return history, newLastUserInput, newLastResponse, Some(Crashed(response.error)), events;
    }

    var answer := response.value.answer.GetOr("");
    history := history + [Human(userInput), AI(answer)];
    if |history| > LoopHistoryLimit {
      history := history[|history| - LoopHistoryLimit..];
    }
    assert history == Record(chatHistory, userInput, answer, LoopHistoryLimit);
    RecordKeepsPairs(chatHistory, userInput, answer, LoopHistoryLimit);
    newLastUserInput, newLastResponse := Some(userInput), Some(response.value);

    stop := None;
    if evaluate {
      var evaluation := RunEvaluation(userInput, response.value, o.eval);
      events := events + [EvaluationRun(userInput, response.value)];
      if evaluation.outcome.Raise? && evaluation.outcome.error != ResourceExhausted {
        stop := Some(Crashed(evaluation.outcome.error));
      }
    }
  }
}

=== FILE: pystr.dfy ===
/** The few pieces of Python's string semantics the controllers rely on:
    `str.lower` (for the `quit` and `/eval` commands), `str.isdigit` with
    `"".join(filter(...))` (the evaluation score), `int(str)` in base 10 (the
    analyzer's count and the score) and `str(int)`, the decimal form a model
    is asked to answer with. Characters are Unicode code points; only the ASCII
    letters, digits and white space are given their Python meaning. */
module PyStr {
  import opened Common

  // ---------------------------------------------------------------- lower()

  function LowerChar(c: char): char {
    if 'A' <= c <= 'Z' then (c as int + 32) as char else c
  }

  function UpperChar(c: char): char {
    if 'a' <= c <= 'z' then (c as int - 32) as char else c
  }

  /** `s.lower()` on the ASCII letters. */
  function Lower(s: string): string {
    seq(|s|, i requires 0 <= i < |s| => LowerChar(s[i]))
  }

  /** Independent statement of a case-insensitive match against a word:
      position by position, either the word's own character or its capital. */
  predicate EqualsIgnoringCase(u: string, w: string) {
    |u| == |w| && forall i :: 0 <= i < |u| ==> u[i] == w[i] || u[i] == UpperChar(w[i])
  }

  predicate NoCapitals(w: string) {
    forall i :: 0 <= i < |w| ==> !('A' <= w[i] <= 'Z')
  }

  /** `u.lower() == w` holds exactly for the case variants of a lower-case word. */
  lemma LowerEqualsIff(u: string, w: string)
    requires NoCapitals(w)
    ensures Lower(u) == w <==> EqualsIgnoringCase(u, w)
  {
    if Lower(u) == w {
      forall i | 0 <= i < |u| ensures u[i] == w[i] || u[i] == UpperChar(w[i]) {
        assert LowerChar(u[i]) == w[i];
      }
    }
    if EqualsIgnoringCase(u, w) {
      forall i | 0 <= i < |u| ensures Lower(u)[i] == w[i] {
        assert LowerChar(u[i]) == w[i];
      }
    }
  }

  // ---------------------------------------------------------------- digits

  predicate IsDigit(c: char) {
    '0' <= c <= '9'
  }

  predicate AllDigits(s: string) {
    forall i :: 0 <= i < |s| ==> IsDigit(s[i])
  }

  function DigitChar(d: nat): (c: char)
    requires d < 10
    ensures IsDigit(c)
  {
    ('0' as int + d) as char
  }

  function DigitValue(c: char): (d: nat)
    requires IsDigit(c)
    ensures d < 10 && DigitChar(d) == c
  {
    c as int - '0' as int
  }

  /** `"".join(filter(str.isdigit, s))`: the digits of `s`, in their order. */
  function KeepDigits(s: string): (r: string)
    ensures AllDigits(r) && |r| <= |s|
  {
    if s == [] then []
    else (if IsDigit(s[0]) then [s[0]] else []) + KeepDigits(s[1..])
  }

  lemma {:induction false} KeepDigitsAppend(a: string, b: string)
    ensures KeepDigits(a + b) == KeepDigits(a) + KeepDigits(b)
  {
    if a == [] {
      assert a + b == b;
    } else {
      assert (a + b)[1..] == a[1..] + b;
      KeepDigitsAppend(a[1..], b);
    }
  }

  lemma {:induction false} KeepDigitsOfDigits(s: string)
    requires AllDigits(s)
    ensures KeepDigits(s) == s
  {
    if s != [] {
      KeepDigitsOfDigits(s[1..]);
    }
  }

  lemma {:induction false} KeepDigitsOfNonDigits(s: string)
    requires forall i :: 0 <= i < |s| ==> !IsDigit(s[i])
    ensures KeepDigits(s) == []
  {
    if s != [] {
      KeepDigitsOfNonDigits(s[1..]);
    }
  }

  /** The number a string of decimal digits denotes, most significant first. */
  function DigitsValue(ds: string): nat
    requires AllDigits(ds)
  {
    if ds == [] then 0 else DigitsValue(ds[..|ds| - 1]) * 10 + DigitValue(ds[|ds| - 1])
  }

  /** `str(n)` for a non-negative integer: no leading zero except for 0 itself. */
  function ShowNat(n: nat): (s: string)
    ensures s != [] && AllDigits(s)
    ensures |s| > 1 ==> s[0] != '0'
    decreases n
  {
    if n < 10 then [DigitChar(n)] else ShowNat(n / 10) + [DigitChar(n % 10)]
  }

  /** `str(n)` for any integer. */
  function ShowInt(n: int): string {
    if n < 0 then "-" + ShowNat(-n) else ShowNat(n)
  }

  lemma {:induction false} ShowNatValue(n: nat)
    ensures DigitsValue(ShowNat(n)) == n
    decreases n
  {
    if n >= 10 {
      ShowNatValue(n / 10);
      var s := ShowNat(n);
      assert s[..|s| - 1] == ShowNat(n / 10);
    }
  }

  // ---------------------------------------------------------------- int(str)

  /** The ASCII characters `str.strip()` (and `int()`) treat as white space. */
  predicate IsSpace(c: char) {
    c == ' ' || 9 <= c as int <= 13 || 28 <= c as int <= 31
  }

  predicate AllSpace(s: string) {
    forall i :: 0 <= i < |s| ==> IsSpace(s[i])
  }

  function TrimStart(s: string): string {
    if s != [] && IsSpace(s[0]) then TrimStart(s[1..]) else s
  }

  function TrimEnd(s: string): string {
    if s != [] && IsSpace(s[|s| - 1]) then TrimEnd(s[..|s| - 1]) else s
  }

  /** `s.strip()`. */
  function Strip(s: string): string {
    TrimEnd(TrimStart(s))
  }

  /** `lstrip` drops a prefix of white space, and only that. */
  lemma {:induction false} TrimStartSuffix(s: string)
    ensures var r := TrimStart(s); |r| <= |s| && r == s[|s| - |r|..]
    ensures var r := TrimStart(s); AllSpace(s[..|s| - |r|]) && (r != [] ==> !IsSpace(r[0]))
  {
    if s != [] && IsSpace(s[0]) {
      TrimStartSuffix(s[1..]);
      var r := TrimStart(s);
      assert s[..|s| - |r|] == [s[0]] + s[1..][..|s| - 1 - |r|];
    }
  }

  /** `rstrip` drops a suffix of white space, and only that. */
  lemma {:induction false} TrimEndPrefix(s: string)
    ensures var r := TrimEnd(s); |r| <= |s| && r == s[..|r|]
    ensures var r := TrimEnd(s); AllSpace(s[|r|..]) && (r != [] ==> !IsSpace(r[|r| - 1]))
  {
    if s != [] && IsSpace(s[|s| - 1]) {
      var p := s[..|s| - 1];
      TrimEndPrefix(p);
      var r := TrimEnd(s);
      assert s[|r|..] == p[|r|..] + [s[|s| - 1]];
    }
  }

  /** `s.strip()` is the slice of `s` left once the white space at both ends
      is dropped: what it removes is white space, and it keeps no white space
      at either end. */
  lemma StripSlice(s: string)
    ensures var a := |s| - |TrimStart(s)|; var r := Strip(s);
      0 <= a && a + |r| <= |s| && r == s[a..a + |r|]
    ensures var a := |s| - |TrimStart(s)|; var r := Strip(s);
      0 <= a <= a + |r| <= |s| && AllSpace(s[..a]) && AllSpace(s[a + |r|..])
    ensures var r := Strip(s); r != [] ==> !IsSpace(r[0]) && !IsSpace(r[|r| - 1])
  {
    var t := TrimStart(s);
    var a := |s| - |t|;
    TrimStartSuffix(s);
    var r := TrimEnd(t);
    TrimEndPrefix(t);
    assert s[a..a + |r|] == t[..|r|];
    assert s[a + |r|..] == t[|r|..];
    if r != [] {
      assert r[0] == t[0];
    }
  }

  lemma StripPadded(pre: string, x: string, post: string)
    requires AllSpace(pre) && AllSpace(post)
    requires x != [] && !IsSpace(x[0]) && !IsSpace(x[|x| - 1])
    ensures Strip(pre + x + post) == x
  {
    TrimStartPadded(pre, x + post);
    assert pre + x + post == pre + (x + post);
    TrimEndPadded(x, post);
  }

  lemma {:induction false} TrimStartPadded(pre: string, x: string)
    requires AllSpace(pre) && x != [] && !IsSpace(x[0])
    ensures TrimStart(pre + x) == x
  {
    if pre != [] {
      assert (pre + x)[1..] == pre[1..] + x;
      TrimStartPadded(pre[1..], x);
    }
  }

  lemma {:induction false} TrimEndPadded(x: string, post: string)
    requires AllSpace(post) && x != [] && !IsSpace(x[|x| - 1])
    ensures TrimEnd(x + post) == x
  {
    if post != [] {
      assert (x + post)[..|x + post| - 1] == x + post[..|post| - 1];
      TrimEndPadded(x, post[..|post| - 1]);
    }
  }

  /** `int()` on an unsigned body: decimal digits, optionally with single
      underscores between them ("1_000"); `None` for anything else. Read from
      the right, like the value itself. */
  function ParseDigitGroups(b: string): (r: Option<nat>)
    ensures r.Some? ==> b != [] && IsDigit(b[0]) && IsDigit(b[|b| - 1])
    decreases |b|
  {
    if b == [] || !IsDigit(b[|b| - 1]) then None
    else
      var d := DigitValue(b[|b| - 1]);
      if |b| == 1 then Some(d)
      else
        var prefix := if b[|b| - 2] == '_' then b[..|b| - 2] else b[..|b| - 1];
        match ParseDigitGroups(prefix)
        case None => None
        case Some(v) => Some(v * 10 + d)
  }

  /** Underscores only separate: the value is that of the digits alone. */
  lemma {:induction false} DigitGroupsValue(b: string)
    requires ParseDigitGroups(b).Some?
    ensures ParseDigitGroups(b).value == DigitsValue(KeepDigits(b))
    decreases |b|
  {
    var last := b[|b| - 1];
    if |b| == 1 {
      assert KeepDigits(b) == [last];
    } else {
      var prefix := if b[|b| - 2] == '_' then b[..|b| - 2] else b[..|b| - 1];
      DigitGroupsValue(prefix);
      if b[|b| - 2] == '_' {
        assert b == prefix + "_" + [last];
        KeepDigitsAppend(prefix, "_");
        KeepDigitsAppend(prefix + "_", [last]);
      } else {
        assert b == prefix + [last];
        KeepDigitsAppend(prefix, [last]);
      }
      var ks := KeepDigits(prefix) + [last];
      assert KeepDigits(b) == ks;
      assert ks[..|ks| - 1] == KeepDigits(prefix);
    }
  }

  /** A plain digit string is read as its value. */
  lemma {:induction false} DigitGroupsOfDigits(ds: string)
    requires ds != [] && AllDigits(ds)
    ensures ParseDigitGroups(ds) == Some(DigitsValue(ds))
    decreases |ds|
  {
    if |ds| > 1 {
      DigitGroupsOfDigits(ds[..|ds| - 1]);
    }
  }

  /** `int(s)` in base 10: `Some(n)` where Python returns `n`, `None` where it
      raises ValueError because `s` is not an integer literal. Surrounding
      white space and one sign are allowed. Python's limit of 4300 digits is
      not modelled. */
  function ParseInt(s: string): (r: Option<int>)
    ensures r.Some? ==> Strip(s) != [] && IsDigit(Strip(s)[|Strip(s)| - 1])
  {
    ParseStripped(Strip(s))
  }

  /** Independent statement of what `int()` accepts as an unsigned body:
      digits and underscores only, a digit at both ends, and never two
      underscores in a row. */
  ghost predicate DigitGroups(b: string) {
    && b != [] && IsDigit(b[0]) && IsDigit(b[|b| - 1])
    && (forall i :: 0 <= i < |b| ==> IsDigit(b[i]) || b[i] == '_')
    && (forall i, j :: 0 <= i < j < |b| && j == i + 1 ==> IsDigit(b[i]) || IsDigit(b[j]))
  }

  /** An integer literal once white space is stripped: at most one sign, then
      digit groups. */
  ghost predicate IsIntLiteral(t: string) {
    t != [] && DigitGroups(if t[0] == '+' || t[0] == '-' then t[1..] else t)
  }

  /** The right-to-left reader accepts exactly the digit groups. */
  lemma {:induction false} DigitGroupsIff(b: string)
    ensures ParseDigitGroups(b).Some? <==> DigitGroups(b)
    decreases |b|
  {
    if b == [] || !IsDigit(b[|b| - 1]) || |b| == 1 {
    } else if b[|b| - 2] == '_' {
      var p := b[..|b| - 2];
      DigitGroupsIff(p);
      if DigitGroups(p) {
        forall i | 0 <= i < |b| ensures IsDigit(b[i]) || b[i] == '_' {
          if i < |p| { assert b[i] == p[i]; }
        }
        forall i, j | 0 <= i < j < |b| && j == i + 1 ensures IsDigit(b[i]) || IsDigit(b[j]) {
          if j < |p| {
            assert b[i] == p[i] && b[j] == p[j];
          } else if j == |p| {
            assert b[i] == p[|p| - 1];
          }
        }
        assert b[0] == p[0];
      }
      if DigitGroups(b) {
        assert b[0] != '_';
        var k := |b| - 3;
        assert b[k + 1] == '_';
        assert IsDigit(b[k]);
        forall i | 0 <= i < |p| ensures IsDigit(p[i]) || p[i] == '_' {
          assert p[i] == b[i];
        }
        forall i, j | 0 <= i < j < |p| && j == i + 1 ensures IsDigit(p[i]) || IsDigit(p[j]) {
          assert p[i] == b[i] && p[j] == b[j];
        }
        assert p[0] == b[0] && p[|p| - 1] == b[|b| - 3];
      }
    } else {
      var p := b[..|b| - 1];
      DigitGroupsIff(p);
      if DigitGroups(p) {
        forall i | 0 <= i < |b| ensures IsDigit(b[i]) || b[i] == '_' {
          if i < |p| { assert b[i] == p[i]; }
        }
        forall i, j | 0 <= i < j < |b| && j == i + 1 ensures IsDigit(b[i]) || IsDigit(b[j]) {
          if j < |p| {
            assert b[i] == p[i] && b[j] == p[j];
          }
        }
        assert b[0] == p[0];
      }
      if DigitGroups(b) {
        forall i | 0 <= i < |p| ensures IsDigit(p[i]) || p[i] == '_' {
          assert p[i] == b[i];
        }
        forall i, j | 0 <= i < j < |p| && j == i + 1 ensures IsDigit(p[i]) || IsDigit(p[j]) {
          assert p[i] == b[i] && p[j] == b[j];
        }
        assert p[0] == b[0] && p[|p| - 1] == b[|b| - 2];
      }
    }
  }

  /** `int(s)` succeeds exactly on the integer literals, padded with white
      space, and its value is that of the literal's digits, negated after a
      minus sign. */
  lemma ParseIntIff(s: string)
    ensures ParseInt(s).Some? <==> IsIntLiteral(Strip(s))
    ensures ParseInt(s).Some? ==> var t := Strip(s);
      var body := if t[0] == '+' || t[0] == '-' then t[1..] else t;
      var v := DigitsValue(KeepDigits(body)) as int;
      ParseInt(s).value == if t[0] == '-' then -v else v
  {
    var t := Strip(s);
    if t != [] {
      var body := if t[0] == '+' || t[0] == '-' then t[1..] else t;
      DigitGroupsIff(body);
      if ParseDigitGroups(body).Some? {
        DigitGroupsValue(body);
      }
    }
  }

  /** `int()` rejects every string without a decimal digit in it. */
  lemma ParseNeedsDigit(s: string)
    ensures ParseInt(s).Some? ==> exists i :: 0 <= i < |s| && IsDigit(s[i])
  {
    var t := Strip(s);
    if ParseStripped(t).Some? {
      StripSlice(s);
      var a := |s| - |TrimStart(s)|;
      var k := a + |t| - 1;
      assert t[|t| - 1] == s[k];
      assert 0 <= k < |s| && IsDigit(s[k]);
    }
  }

  /** `int()` after white space is removed: an optional sign, then digit groups. */
  function ParseStripped(t: string): (r: Option<int>)
    ensures r.Some? ==> t != [] && IsDigit(t[|t| - 1])
  {
    if t == [] then None
    else
      var negative := t[0] == '-';
      var body := if t[0] == '+' || negative then t[1..] else t;
      match ParseDigitGroups(body)
      case None => None
      case Some(v) => Some(if negative then -(v as int) else v as int)
  }

  lemma ParseStrippedShow(n: int)
    ensures ParseStripped(ShowInt(n)) == Some(n)
  {
    var m := if n < 0 then -n else n;
    ShowNatValue(m);
    ParseStrippedDigits(ShowNat(m));
  }

  /** A plain digit string, with or without a minus sign, is read as its value. */
  lemma ParseStrippedDigits(ds: string)
    requires ds != [] && AllDigits(ds)
    ensures ParseStripped(ds) == Some(DigitsValue(ds))
    ensures ParseStripped("-" + ds) == Some(-(DigitsValue(ds) as int))
  {
    DigitGroupsOfDigits(ds);
    assert IsDigit(ds[0]);
    assert ("-" + ds)[1..] == ds;
  }

  /** Round trip: `int()` reads back the decimal form of every integer, with any
      white space around it (a model's answer often ends in a newline). */
  lemma ParseShowInt(pre: string, n: int, post: string)
    requires AllSpace(pre) && AllSpace(post)
    ensures ParseInt(pre + ShowInt(n) + post) == Some(n)
  {
    var x := ShowInt(n);
    var m := if n < 0 then -n else n;
    assert x[|x| - 1] == ShowNat(m)[|ShowNat(m)| - 1];
    StripPadded(pre, x, post);
    ParseStrippedShow(n);
  }
}

=== FILE: retriever.dfy ===
/** The retrieval chain builder of src/rag/retriver.py: how broad the base
    similarity search is for a given rerank cutoff, and the fixed order in
    which the wrapper stages are stacked. The stages themselves (vector search,
    query expansion, reranking, history-aware rewriting) are library code; the
    model keeps only their parameters. */
module DynamicRetriever {
  import opened Common

  /** Breadth of the base search for a rerank cutoff `topN`. */
  function TopK(topN: int): (k: int)
    ensures k >= DefaultRetrieverTopK
    ensures k >= topN
    ensures k == DefaultRetrieverTopK || k == 2 * topN
    ensures topN >= DefaultRetrieverTopK ==> k == 2 * topN
    ensures topN < DefaultRetrieverTopK ==> k == DefaultRetrieverTopK
  {
    if topN >= DefaultRetrieverTopK then topN * 2 else DefaultRetrieverTopK
  }

  /** A wider cutoff never narrows the base search. */
  lemma TopKMonotone(a: int, b: int)
    requires a <= b
    ensures TopK(a) <= TopK(b)
  {
  }

  /** A retriever as a stack of wrappers around a base similarity search. */
  datatype Retriever =
    | VectorSearch(k: int)
    | MultiQuery(llm: ModelRole, base: Retriever)
    | Compression(rerankTopN: int, base: Retriever)
    | HistoryAware(llm: ModelRole, base: Retriever)

  datatype Stage = SearchStage | MultiQueryStage | RerankStage | HistoryAwareStage

  /** The stages from the innermost (the one that touches the index) outwards. */
  function Stages(r: Retriever): seq<Stage> {
    match r
    case VectorSearch(_) => [SearchStage]
    case MultiQuery(_, b) => Stages(b) + [MultiQueryStage]
    case Compression(_, b) => Stages(b) + [RerankStage]
    case HistoryAware(_, b) => Stages(b) + [HistoryAwareStage]
  }

  /** The `k` of the base search at the bottom of the stack. */
  function SearchBreadth(r: Retriever): int {
    match r
    case VectorSearch(k) => k
    case MultiQuery(_, b) => SearchBreadth(b)
    case Compression(_, b) => SearchBreadth(b)
    case HistoryAware(_, b) => SearchBreadth(b)
  }

  /** The rerank cutoffs, innermost first. */
  function RerankCutoffs(r: Retriever): seq<int> {
    match r
    case VectorSearch(_) => []
    case MultiQuery(_, b) => RerankCutoffs(b)
    case Compression(n, b) => RerankCutoffs(b) + [n]
    case HistoryAware(_, b) => RerankCutoffs(b)
  }

  /** The model bindings the stages that call a model are given. */
  function Models(r: Retriever): set<ModelRole> {
    match r
    case VectorSearch(_) => {}
    case MultiQuery(m, b) => Models(b) + {m}
    case Compression(_, b) => Models(b)
    case HistoryAware(m, b) => Models(b) + {m}
  }

  /** `create_dynamic_retriever_chain(db, llm, top_n)`: search with `TopK(top_n)`,
      expand the query, rerank down to `top_n`, then rewrite the question from
      the chat history; every model-driven stage uses the given binding. */
  function CreateDynamicRetrieverChain(topN: int, llm: ModelRole): (r: Retriever)
    ensures Stages(r) == [SearchStage, MultiQueryStage, RerankStage, HistoryAwareStage]
    ensures SearchBreadth(r) == TopK(topN)
    ensures RerankCutoffs(r) == [topN]
    ensures Models(r) == {llm}
    ensures SearchBreadth(r) >= topN
  {
    var baseRetriever := VectorSearch(TopK(topN));
    var multiQueryRetriever := MultiQuery(llm, baseRetriever);
    var compressionRetriever := Compression(topN, multiQueryRetriever);
    assert Stages(multiQueryRetriever) == [SearchStage, MultiQueryStage];
    assert Stages(compressionRetriever) == [SearchStage, MultiQueryStage, RerankStage];
    assert RerankCutoffs(multiQueryRetriever) == [];
    assert RerankCutoffs(compressionRetriever) == [topN];
    assert Models(multiQueryRetriever) == {llm};
    assert Models(compressionRetriever) == {llm};
    assert SearchBreadth(multiQueryRetriever) == TopK(topN);
    assert SearchBreadth(compressionRetriever) == TopK(topN);
    HistoryAware(llm, compressionRetriever)
  }
}

=== FILE: src_orchestrator.dfy ===
/** The earlier conversation orchestrator (src/rag_orchestrator.py): the same
    analyzer, chains and single fallback as the current one, but without the
    idle reset, without the margin on the analyzer's count and without the
    greeting on the first message. */
module SrcOrchestrator {
  import opened Common
  import opened History
  import opened RagChains

  const HistoryLimit: nat := 20

  datatype OrchestratorState = OrchestratorState(chatHistory: seq<Message>, lastRetrievedDocs: seq<Doc>)

  datatype TurnResult = TurnResult(state: OrchestratorState, outcome: Call<string>, events: seq<Event>)

  /** One call of `invoke(user_input)`. */
  function Turn(s: OrchestratorState, userInput: string, o: Oracles): (t: TurnResult)
    ensures t.outcome.Raise? ==> t.state.chatHistory == s.chatHistory
    ensures t.outcome.Ok? ==>
      t.state.chatHistory == Record(s.chatHistory, userInput, t.outcome.value, HistoryLimit)
    ensures |t.events| >= 1 && t.events[0] == Analyze(userInput)
  {
    match DynamicTopN(o.analyze(userInput), 0)
    case Raise(e) => TurnResult(s, Raise(e), [Analyze(userInput)])
    case Ok(topN) =>
      var a := WithFallback(o, topN, userInput, userInput, s.chatHistory);
      var s1 := s.(lastRetrievedDocs := a.docs.GetOr(s.lastRetrievedDocs));
      var events := [Analyze(userInput)] + a.events;
      match a.reply
      case Raise(e) => TurnResult(s1, Raise(e), events)
      case Ok(response) =>
        TurnResult(s1.(chatHistory := Record(s.chatHistory, userInput, response, HistoryLimit)), Ok(response), events)
  }

  /** The analyzer is called once, first; every retrieval goes through the
      dynamic chain built for its model and the analyzer's count, unchanged,
      with the raw user input and the current history, and is recorded with
      what the retriever gave back; every answer call gets the raw user input
      and the current history. */
  lemma TurnCalls(s: OrchestratorState, userInput: string, o: Oracles)
    ensures var t := Turn(s, userInput, o);
      forall i :: 1 <= i < |t.events| ==> !t.events[i].Analyze?
    ensures var t := Turn(s, userInput, o); var h := s.chatHistory;
      var topN := DynamicTopN(o.analyze(userInput), 0);
      forall i :: 0 <= i < |t.events| && t.events[i].Retrieve? ==>
        && topN.Ok?
        && t.events[i].chain == DynamicRetriever.CreateDynamicRetrieverChain(topN.value, t.events[i].llm)
        && t.events[i].input == userInput && t.events[i].history == h
        && t.events[i].retrieved == o.retrieve(t.events[i].chain, userInput, h)
    ensures var t := Turn(s, userInput, o); var h := s.chatHistory;
      forall i :: 0 <= i < |t.events| && t.events[i].Answer? ==>
        && t.events[i].history == h && t.events[i].input == userInput
        && t.events[i].reply == o.answer(t.events[i].llm, userInput, h, t.events[i].context)
  {
    var t := Turn(s, userInput, o);
    var topN := DynamicTopN(o.analyze(userInput), 0);
    if topN.Ok? {
      AnalyzedEvents(o, topN.value, userInput, s.chatHistory);
      assert t.events == [Analyze(userInput)] + WithFallback(o, topN.value, userInput, userInput, s.chatHistory).events;
    } else {
      assert t.events == [Analyze(userInput)];
    }
  }

  /** The trace of a turn that got past the analyzer: the analyzer call, then
      the calls of the chains, made as the try block makes them. */
  lemma AnalyzedEvents(o: Oracles, topN: int, userInput: string, h: seq<Message>)
    ensures var ev := [Analyze(userInput)] + WithFallback(o, topN, userInput, userInput, h).events;
      forall i :: 0 <= i < |ev| ==>
        && (i > 0 ==> !ev[i].Analyze?)
        && (ev[i].Retrieve? ==>
              && ev[i].chain == DynamicRetriever.CreateDynamicRetrieverChain(topN, ev[i].llm)
              && ev[i].input == userInput && ev[i].history == h
              && ev[i].retrieved == o.retrieve(ev[i].chain, userInput, h))
        && (ev[i].Answer? ==>
              && ev[i].history == h && ev[i].input == userInput
              && ev[i].reply == o.answer(ev[i].llm, userInput, h, ev[i].context))
  {
    var a := WithFallback(o, topN, userInput, userInput, h);
    FallbackCalls(o, topN, userInput, userInput, h);
    var ev := [Analyze(userInput)] + a.events;
    forall i | 1 <= i < |ev| ensures ev[i] == a.events[i - 1] {
    }
  }

  /** After a successful turn `last_retrieved_docs` is exactly what the
      retrieval on the answering model returned, the context the returned
      answer was generated from; the answer is that call's reply. */
  lemma TurnAnswerDocs(s: OrchestratorState, userInput: string, o: Oracles)
    ensures var t := Turn(s, userInput, o); var h := s.chatHistory;
      var topN := DynamicTopN(o.analyze(userInput), 0);
      t.outcome.Ok? ==> topN.Ok? && |t.events| >= 2 && var last := t.events[|t.events| - 1];
        && last.Answer? && last.context == t.state.lastRetrievedDocs
        && o.retrieve(DynamicRetriever.CreateDynamicRetrieverChain(topN.value, last.llm), userInput, h)
           == Ok(t.state.lastRetrievedDocs)
        && t.outcome == o.answer(last.llm, userInput, h, t.state.lastRetrievedDocs)
  {
    var t := Turn(s, userInput, o);
    var h := s.chatHistory;
    var topN := DynamicTopN(o.analyze(userInput), 0);
    if topN.Ok? {
      var a := WithFallback(o, topN.value, userInput, userInput, h);
      FallbackResult(o, topN.value, userInput, userInput, h);
      FallbackCalls(o, topN.value, userInput, userInput, h);
      assert t.events == [Analyze(userInput)] + a.events;
      if t.outcome.Ok? {
        assert t.events[|t.events| - 1] == a.events[|a.events| - 1];
        assert t.events[|t.events| - 2] == a.events[|a.events| - 2];
      }
    }
  }

  /** Whatever the turn's outcome, `last_retrieved_docs` afterwards holds the
      documents of the turn's last retrieval that returned, and is left as it
      was when no retrieval returned. */
  lemma TurnDocs(s: OrchestratorState, userInput: string, o: Oracles)
    ensures var t := Turn(s, userInput, o);
      t.state.lastRetrievedDocs == LastRetrieved(t.events).GetOr(s.lastRetrievedDocs)
  {
    var t := Turn(s, userInput, o);
    var topN := DynamicTopN(o.analyze(userInput), 0);
    LastRetrievedAppend([Analyze(userInput)], []);
    assert [Analyze(userInput)] + [] == [Analyze(userInput)];
    if topN.Ok? {
      var a := WithFallback(o, topN.value, userInput, userInput, s.chatHistory);
      FallbackResult(o, topN.value, userInput, userInput, s.chatHistory);
      LastRetrievedAppend([Analyze(userInput)], a.events);
      assert t.events == [Analyze(userInput)] + a.events;
    }
  }

  /** The exceptions of a turn: an analyzer exception other than
      ValueError/TypeError escapes before any chain is called; past the
      analyzer the primary model retrieves first, and the fallback model is
      called, and from then on only it, exactly when the primary pass raised
      ResourceExhausted. */
  lemma TurnFallback(s: OrchestratorState, userInput: string, o: Oracles)
    ensures var t := Turn(s, userInput, o); var analysis := o.analyze(userInput);
      DynamicTopN(analysis, 0).Raise? ==> t.outcome == analysis && t.events == [Analyze(userInput)]
    ensures var t := Turn(s, userInput, o); var topN := DynamicTopN(o.analyze(userInput), 0);
      topN.Ok? ==>
        && |t.events| >= 2 && t.events[1].Retrieve? && t.events[1].llm == Primary
        && ((exists i :: 1 <= i < |t.events| && IsFallbackCall(t.events[i]))
            <==> TryChains(o, Primary, topN.value, userInput, userInput, s.chatHistory).reply == Raise(ResourceExhausted))
        && (forall i, j :: 1 <= i < j < |t.events| && IsFallbackCall(t.events[i]) ==> IsFallbackCall(t.events[j]))
  {
    var t := Turn(s, userInput, o);
    var topN := DynamicTopN(o.analyze(userInput), 0);
    if topN.Ok? {
      AnalyzedFallback(o, topN.value, userInput, userInput, s.chatHistory);
      assert t.events == [Analyze(userInput)] + WithFallback(o, topN.value, userInput, userInput, s.chatHistory).events;
    }
  }

  /** A turn returns or raises what its last call did: the analyzer's
      exception, a retrieval's exception, or the answer chain's reply or
      exception; so any exception other than ResourceExhausted from the
      primary pass, and any on the fallback path, propagates unchanged, and
      ResourceExhausted escapes only from the analyzer or the fallback. */
  lemma TurnOutcome(s: OrchestratorState, userInput: string, o: Oracles)
    ensures var t := Turn(s, userInput, o); var last := t.events[|t.events| - 1];
      && (last.Analyze? ==> t.outcome.Raise? && t.outcome == o.analyze(userInput))
      && (last.Retrieve? ==> t.outcome == Raise(last.retrieved.error))
      && (last.Answer? ==> t.outcome == last.reply)
      && (t.outcome == Raise(ResourceExhausted) ==> last.Analyze? || IsFallbackCall(last))
  {
    var t := Turn(s, userInput, o);
    var topN := DynamicTopN(o.analyze(userInput), 0);
    if topN.Ok? {
      AnalyzedFallback(o, topN.value, userInput, userInput, s.chatHistory);
      assert t.events == [Analyze(userInput)] + WithFallback(o, topN.value, userInput, userInput, s.chatHistory).events;
    }
  }

  /** A turn keeps the history well paired and within its bound. */
  lemma TurnKeepsPairs(s: OrchestratorState, userInput: string, o: Oracles)
    requires WellPaired(s.chatHistory) && |s.chatHistory| <= HistoryLimit
    ensures var h := Turn(s, userInput, o).state.chatHistory; WellPaired(h) && |h| <= HistoryLimit
  {
    var t := Turn(s, userInput, o);
    if t.outcome.Ok? {
      RecordKeepsPairs(s.chatHistory, userInput, t.outcome.value, HistoryLimit);
    }
  }

  class RagOrchestrator {
    var chatHistory: seq<Message>
    var lastRetrievedDocs: seq<Doc>

    ghost predicate Valid()
      reads this
    {
      WellPaired(chatHistory) && |chatHistory| <= HistoryLimit
    }

    function State(): OrchestratorState
      reads this
    {
      OrchestratorState(chatHistory, lastRetrievedDocs)
    }

    constructor ()
      ensures Valid()
      ensures chatHistory == [] && lastRetrievedDocs == []
    {
      chatHistory := [];
      lastRetrievedDocs := [];
    }

    /** `invoke(user_input)`. */
    method Invoke(userInput: string, o: Oracles) returns (response: Call<string>)
      requires Valid()
      modifies this
      ensures Valid()
      ensures var t := Turn(old(State()), userInput, o);
              State() == t.state && response == t.outcome
    {
      var analysis := o.analyze(userInput);
      var parsed := DynamicTopN(analysis, 0);
      if parsed.Raise? {
        return Raise(parsed.error);
      }
      var topN := parsed.value;

      ghost var docs0 := lastRetrievedDocs;
      var reply := RunChains(Primary, topN, userInput, o);
      if reply == Raise(ResourceExhausted) {
        reply := RunChains(Fallback, topN, userInput, o);
      }
      FallbackOutcome(o, topN, userInput, userInput, chatHistory, docs0);
      if reply.Raise? {
        return reply;
      }
      AppendTurn(userInput, reply.value);
      response := reply;
    }

    /** One pass of the try body on model `llm`. */
    method RunChains(llm: ModelRole, topN: int, userInput: string, o: Oracles) returns (reply: Call<string>)
      modifies this
      ensures var a := TryChains(o, llm, topN, userInput, userInput, chatHistory);
              reply == a.reply && lastRetrievedDocs == a.docs.GetOr(old(lastRetrievedDocs))
      ensures chatHistory == old(chatHistory)
    {
      var retrieverChain := DynamicRetriever.CreateDynamicRetrieverChain(topN, llm);
      var retrieved := o.retrieve(retrieverChain, userInput, chatHistory);
      if retrieved.Raise? {
        return Raise(retrieved.error);
      }
      lastRetrievedDocs := retrieved.value;
      reply := o.answer(llm, userInput, chatHistory, lastRetrievedDocs);
    }

    /** Appends the question and the answer, then keeps the last
        `HistoryLimit` messages. */
    method AppendTurn(question: string, answer: string)
      requires Valid()
      modifies this
      ensures Valid()
      ensures chatHistory == Record(old(chatHistory), question, answer, HistoryLimit)
      ensures lastRetrievedDocs == old(lastRetrievedDocs)
    {
      ghost var before := chatHistory;
      chatHistory := chatHistory + [Human(question), AI(answer)];
      if |chatHistory| > HistoryLimit {
        chatHistory := chatHistory[|chatHistory| - HistoryLimit..];
      }
      assert chatHistory == Record(before, question, answer, HistoryLimit);
      RecordKeepsPairs(before, question, answer, HistoryLimit);
    }
  }
}
